=== FILE: README.md ===
# SPL token lending: the lending saga, modelled in Dafny

This project models the core of a token-lending service. A user asks for an
amount of a custodial token to be sent to their wallet. The service records a
PENDING loan (`initialize`). After the user signs the loan id with their wallet
key, the service flips the loan to ACTIVE inside a ledger transaction and sends
the tokens (`submit`). The transaction commits only when the transfer reports
success.

The model is purely functional. Each use case is a step from (ledger, network)
to (result, ledger, network).

- `wrappers.dfy` (`Wrappers`): `Option` and `Result`.
- `repository_data.dfy` (`LoanData`): loan items, statuses, pagination, and the
  key types. The sixteen big-endian bytes of a loan's UUID are the message that
  the borrower signs.
- `repository_loan.dfy` (`LoanLedger`): the `loan` table as a map from id to
  item. It has create, lookup, count, offset/limit listing, address-filtered
  listing, a full-row update, and a transaction (snapshot, writes, commit or
  restore).
- `repository_iterable.dfy` (`Iterable`): the attempt/sleep schedule of
  `iter_with_exp_delay` and the confirmation poller that consumes it. Delays are
  exact reals, `initial * alpha^k`.
- `repository_token.dfy` (`TokenGateway`): deriving a wallet's associated token
  account, creating it when missing, reading a balance, and transferring. The
  network is a value with three parts: the token accounts with their balances,
  an oracle for what a transfer submission does, and a log of the RPC calls made.
- `domain_data.dfy` (`DomainData`): the result unions and the paged view.
- `domain_cases.dfy` (`LendingCases`): `initialize`, `submit` and the two view
  cases.
- `api_data.dfy` (`ApiData`): the status codec, the `id_` to `id` key rename,
  and the validation of a loan request's amount.

Four things come in as parameters:

- Signature verification (Ed25519) is the function parameter `verify`.
- The UUID that PostgreSQL generates for a new row is the parameter `newId`.
- The row order of a query without ORDER BY is the parameter `scan`. It may be
  any enumeration that lists each stored id once.
- The network's behaviour for a transfer is the `Submission` oracle: rejected
  with an exception, or accepted. An accepted transfer either was or was not
  executed on-chain, and it comes with the answers to successive status queries.

Three facts about the code shape the model:

- `find` has no ORDER BY and no filter, so no order of its rows is promised.
- `LoanItem` has an `address` field (the borrower's wallet).
- `Amount` is a plain integer. Nothing in the code as written rejects an
  amount of zero or below (see Findings).

## Model

| member | source | states |
|---|---|---|
| LoanData.UuidBytes | src/spl_token_lending/domain/cases.py:66-67 | the signed message is exactly sixteen bytes and decodes back to the loan id |
| LoanData.UuidBytesInjective | src/spl_token_lending/domain/cases.py:66-67 | two loans have the same signed message only if they are the same loan |
| LoanData.BigEndianRoundTrip | src/spl_token_lending/domain/cases.py:67 | decoding the big-endian bytes of a number that fits gives the number back |
| LoanData.BigEndianCanonical | src/spl_token_lending/domain/cases.py:67 | every byte string is the big-endian encoding, at its own width, of the number it denotes |
| LoanData.UuidBytesUnique | src/spl_token_lending/domain/cases.py:66-67 | the sixteen bytes of an id are the only sixteen-byte string that decodes to it |
| LoanLedger.GetById | src/spl_token_lending/repository/loan.py:29-32 | returns the stored item when the id is present, and nothing when it is absent |
| LoanLedger.Count | src/spl_token_lending/repository/loan.py:34-35 | zero exactly when the table is empty, and at least one once any row is stored |
| LoanLedger.ScanOrderLength | src/spl_token_lending/repository/loan.py:34-40 | a full scan returns exactly `count()` rows |
| LoanLedger.Page | src/spl_token_lending/repository/loan.py:38 | OFFSET/LIMIT skip `offset` rows and keep at most `limit`; a negative offset or limit is a database error |
| LoanLedger.PagesConcatenate | src/spl_token_lending/repository/loan.py:37-40 | two consecutive pages together equal the page that spans both |
| LoanLedger.Find | src/spl_token_lending/repository/loan.py:37-40 | the rows at positions `offset` to `offset + limit - 1` of the scan, with no duplicates; exactly `min(limit, count() - offset)` of them, none once `offset >= count()`; no ordering promised |
| LoanLedger.FindWholeTable | src/spl_token_lending/repository/loan.py:37-40 | a page from offset 0 at least `count()` long holds exactly `count()` rows and every stored row |
| LoanLedger.FindByAddress | src/spl_token_lending/repository/loan.py:45-53 | only stored rows whose address equals the key; of the matching rows in scan order, those from position `offset` on, exactly `min(limit, matches - offset)` of them; when rows sit under their own ids, no row appears twice |
| LoanLedger.ScanByAddressDistinct | src/spl_token_lending/repository/loan.py:45-53 | over a scan that lists each id once, in a table whose rows sit under their own ids, the rows matching an address are pairwise distinct and each carries an id from the scan |
| LoanLedger.FindByAddressComplete | src/spl_token_lending/repository/loan.py:45-53 | a page from offset 0 at least as long as the table contains every row with that address |
| LoanLedger.CountByAddress | src/spl_token_lending/repository/loan.py:42-43 | always fails: the method is not implemented |
| LoanLedger.Create | src/spl_token_lending/repository/loan.py:55-64 | the new row carries the generated id and exactly the given status, address and amount; the id was not stored before; count grows by one; other rows are unchanged; a key that is already stored is a unique violation |
| LoanLedger.UpdateExistingById | src/spl_token_lending/repository/loan.py:66-75 | replaces the row with that id and returns the new item; other rows and the count are unchanged; fails when no row has the id |
| LoanLedger.Begin | src/spl_token_lending/repository/loan.py:23-27 | entering the transaction changes nothing: committing or rolling back at once leaves the ledger as it was |
| LoanLedger.CommittedUpdatesVisible | src/spl_token_lending/repository/loan.py:23-27 | updates of stored rows made inside a committed transaction all become visible: each row ends up as the last update written to it, and no row appears or disappears |
| LoanLedger.RolledBackUpdatesInvisible | src/spl_token_lending/repository/loan.py:23-27 | after a rollback, the ledger equals its state on entering the transaction, whatever updates were made inside |
| Iterable.ExpDelayFrom | src/spl_token_lending/repository/iterable.py:22-27 | from a given attempt on, attempt k and the sleep after it sit at fixed positions, and the trace has 2n-1 events |
| Iterable.IterWithExpDelay | src/spl_token_lending/repository/iterable.py:17-27 | nothing when `max_attempts <= 0`; otherwise 2n-1 events that end with the last attempt |
| Iterable.ScheduleContents | src/spl_token_lending/repository/iterable.py:22-27 | a schedule of 2n-1 events hands out n consecutive attempts and performs n-1 sleeps with geometric delays |
| Iterable.IterWithExpDelayContents | src/spl_token_lending/repository/iterable.py:22-27 | yields exactly 0..n-1 in order, sleeps n-1 times, never after the last attempt, and the sleep after attempt k is `initial * alpha^k` |
| Iterable.PollFrom | src/spl_token_lending/repository/iterable.py:38-46 | the poller consumes a prefix of the schedule, stops at the first matching status, and otherwise uses the whole budget |
| Iterable.WaitForSignatureStatus | src/spl_token_lending/repository/iterable.py:30-46 | true exactly when one of the first `max_attempts` statuses has confirmation level `expected`, where a missing status does not match; at most `max_attempts` queries; the last one matches and none before it does; a false answer comes only after all `max_attempts` queries |
| Iterable.PollSleeps | src/spl_token_lending/repository/iterable.py:25-27 | the poller sleeps one time fewer than it queries, `initial * alpha^k` after query k |
| Iterable.StopsAtFourthQuery | src/spl_token_lending/repository/iterable.py:38-46 | three non-matching answers, then a matching one: true after four queries, with sleeps `initial`, `initial*alpha` and `initial*alpha^2` |
| Iterable.DefaultBackoffScenario | src/spl_token_lending/repository/iterable.py:12-27 | with the defaults 10, 1.0 and 1.5: three unconfirmed answers, then a finalized one, give true after 4 queries with sleeps 1.0, 1.5 and 2.25 |
| Iterable.WaitForSuccessfulStatus | src/spl_token_lending/repository/iterable.py:38-46 | corrected poller: true exactly when a status within the budget reached the level with no on-chain error; stops at the first such status; a false answer comes only after all `max_attempts` queries |
| TokenGateway.GetAccount | src/spl_token_lending/repository/token.py:42-43 | the associated account is neither the wallet key nor the mint key |
| TokenGateway.GetAccountInjective | src/spl_token_lending/repository/token.py:42-43 | distinct wallets have distinct associated accounts, and no associated account is the wallet itself |
| TokenGateway.GetOrCreateAccount | src/spl_token_lending/repository/token.py:45-53 | returns the derived associated address either way; makes no create call when the account exists; otherwise makes exactly one create call, which adds an empty account |
| TokenGateway.GetAccountAmount | src/spl_token_lending/repository/token.py:63-68 | returns a value exactly when the balance response is a balance, and that value is the balance; only the balance request is sent |
| TokenGateway.TransferWith | src/spl_token_lending/repository/token.py:70-114 | sends from the owner's associated account; resolves or creates the destination before sending; a rejected submission returns false with no status query; an accepted one makes 1 to 10 status queries, and exactly 10 when it is never confirmed; a confirmed one stops at the first accepted status, so it makes k+1 queries when that status is the k-th answer; true only when accepted and confirmed |
| TokenGateway.TransferAsWritten | src/spl_token_lending/repository/token.py:93-114 | true exactly when the submission was accepted and some status within the budget reports it finalized, whether or not the transaction failed on-chain |
| TokenGateway.Transfer | src/spl_token_lending/repository/token.py:70-114 | corrected transfer: true exactly when accepted and finalized without an on-chain error |
| TokenGateway.TransferDeliversAmount | src/spl_token_lending/repository/token.py:70-114 | on a coherent network, success means the destination holds exactly `amount` more and the owner exactly `amount` less |
| TokenGateway.FinalizedFailureCountsAsSuccess | src/spl_token_lending/repository/iterable.py:43-44 | a transaction finalized with an error (not executed) makes the transfer as written report true while no token moved; the corrected transfer reports false |
| LendingCases.ValidateSignature | src/spl_token_lending/domain/cases.py:66-67 | the signature is checked under the loan's address over the one sixteen-byte message that decodes to the loan id |
| LendingCases.Initialize | src/spl_token_lending/domain/cases.py:31-45 | unreadable balance, or `amount > balance`, gives the matching refusal and leaves the ledger unchanged; `amount == balance` is accepted; a generated id that is already stored gives the database's unique-key error, uncaught; success adds exactly one PENDING row with the given address and amount and returns it; only the balance is read from the network |
| LendingCases.SubmitAsWritten | src/spl_token_lending/domain/cases.py:47-64 | unknown id gives "loan was not found" and a bad signature gives "provided signature is invalid", both before any write or RPC; a found loan with a valid signature, whatever its status, is submitted exactly when the transfer as written reports true (the "if" half in a ledger whose rows sit under their own ids); success writes the row back ACTIVE with id, address and amount unchanged, returns it, and keeps every other row; a found loan with a valid signature whose transfer as written reports false gives "transfer process failed unexpectedly" (same keyed-ledger condition), leaving the ledger unchanged but the network as that transfer left it |
| LendingCases.Submit | src/spl_token_lending/domain/cases.py:47-64 | the refusals come in the source's order and touch nothing; the ledger changes only on success; a pending loan with a valid signature whose transfer reports false gives "transfer process failed unexpectedly" (in a ledger whose rows sit under their own ids), rolling the ledger back but leaving the network as the transfer left it; success turns the stored row ACTIVE with id, address and amount unchanged and returns it |
| LendingCases.FailedSubmitKeepsReads | src/spl_token_lending/domain/cases.py:55-64 | after a failed submit, `count` and every `find` page, read in the same row order, are the same as before |
| LendingCases.SubmitSucceeds | src/spl_token_lending/domain/cases.py:47-64 | a stored PENDING loan with a valid signature, on a network that accepts the transfer and reports it finalized without error, is submitted, and the network is left as the transfer leaves it |
| LendingCases.SubmitDeliversAmount | tests/test_domain_cases.py:59-63 | on a coherent network that confirms the transfer, a pending loan with a valid signature is submitted, and the borrower's token account then holds exactly the loan amount more |
| LendingCases.SubmitAtMostOnce | src/spl_token_lending/domain/cases.py:47-64 | on a network that confirms the transfer, a pending loan with a valid signature is submitted; any later submit of that loan is refused without touching the ledger or the network |
| LendingCases.SubmitAsWrittenPaysTwice | src/spl_token_lending/domain/cases.py:47-64 | the code as written pays twice when the same signature is submitted twice; the corrected submit refuses the second attempt |
| LendingCases.LifecycleSteps | src/spl_token_lending/domain/cases.py:43-57 | initialize only adds PENDING rows; the corrected submit only turns a PENDING row ACTIVE and keeps its other fields; no case produces CLOSED |
| LendingCases.UnconfirmedTransferRunsAhead | src/spl_token_lending/domain/cases.py:55-64 | a transfer that the network executes but never reports confirmed makes submit fail and the ledger roll back, while the borrower's account has received the amount; as written and corrected alike |
| LendingCases.DefaultPageListsSmallTable | src/spl_token_lending/repository/data.py:12-15 | with the default paging (offset 0, limit 1000), a table of at most a thousand rows is listed in full, with the defaults echoed and `total = count()` |
| LendingCases.ViewAllLoans | src/spl_token_lending/domain/cases.py:94-105 | echoes offset and limit, reports `total = count()`, and returns the items of `find` for that page; fails exactly when the page is negative |
| LendingCases.ViewUserLoans | src/spl_token_lending/domain/cases.py:75-86 | always fails, because `count_by_address` raises |
| ApiData.DecodeLoanItemStatus | src/spl_token_lending/api/data.py:33-41 | maps each of the three literals to the status of the same name; any other string raises |
| ApiData.ValidateStatus | src/spl_token_lending/api/data.py:72-83 | passes strings through unchanged and maps each status to one of the three literals |
| ApiData.StatusNamesDistinct | src/spl_token_lending/api/data.py:76-81 | distinct statuses get distinct names |
| ApiData.StatusRoundTrip | src/spl_token_lending/api/data.py:33-41 | decoding the name of a status gives the status back |
| ApiData.LiteralRoundTrip | src/spl_token_lending/api/data.py:72-83 | encoding the status a literal decodes to gives the literal back |
| ApiData.ValidateId | src/spl_token_lending/api/data.py:61-70 | no "id_" key leaves the mapping unchanged; otherwise "id_" is removed, "id" takes its value (replacing any earlier "id"), and all other keys are unchanged |
| ApiData.ValidateIdIdempotent | src/spl_token_lending/api/data.py:61-70 | renaming twice is the same as renaming once |
| ApiData.ParseLoanRequestAsWritten | src/spl_token_lending/api/data.py:44-46 | every integer amount is accepted, and the request carries the given wallet and amount |
| ApiData.NonPositiveAmountReachesLedger | src/spl_token_lending/api/handlers.py:18-32 | as written, a request for zero or a negative amount passes validation, and `initialize` records it as a PENDING loan when the balance can be read |
| ApiData.ParseLoanRequest | src/spl_token_lending/api/data.py:44-46 | corrected validation: a loan request is accepted exactly when its amount is strictly positive |
| ApiData.RecordedLoansArePositive | src/spl_token_lending/api/handlers.py:18-32 | with the corrected validation, every loan that `initialize` records from a request has a positive amount |

## Findings

| source | as written | input that shows it | evidently intended | confidence | as-written member | corrected member |
|---|---|---|---|---|---|---|
| src/spl_token_lending/domain/cases.py:47-64 | `submit` never checks that the loan is still PENDING | a loan that was submitted successfully, submitted again with the same valid signature: the transfer runs a second time | refuse a loan that is not PENDING, so each loan is paid at most once | medium; not executed | LendingCases.SubmitAsWrittenPaysTwice | LendingCases.SubmitAtMostOnce |
| src/spl_token_lending/repository/iterable.py:43-44 | a status counts as success when its confirmation level matches, whatever its `err` field says | a transfer that passed preflight but failed on-chain, answered by a status with `err` set and `confirmation_status` Finalized: `transfer` returns true and the loan turns ACTIVE although no token moved | also require that `err` is empty | medium; not executed | TokenGateway.FinalizedFailureCountsAsSuccess | TokenGateway.TransferDeliversAmount |
| src/spl_token_lending/api/data.py:46 | `amount: Amount = Field(exclusiveMinimum=0)`: under pydantic 1.x, which the code imports (`GenericModel`, `BaseSettings`, `ModelField`), `exclusiveMinimum` is not a validation keyword; it only reaches the JSON schema | a loan request with `amount` 0 or -5: it is accepted and a PENDING loan of that amount is recorded | reject amounts of zero or below (`gt=0`) | medium; not executed | ApiData.NonPositiveAmountReachesLedger | ApiData.RecordedLoansArePositive |

The corrected definitions are `LendingCases.Submit`, `TokenGateway.Transfer`,
`Iterable.WaitForSuccessfulStatus` and `ApiData.ParseLoanRequest`. `Submit`
settles through `Transfer`, which polls through `WaitForSuccessfulStatus`. The
as-written versions (`SubmitAsWritten`, `TransferAsWritten`,
`WaitForSignatureStatus`, `ParseLoanRequestAsWritten`) exist only to exhibit the
findings. The HTTP handler is not modelled, so `RecordedLoansArePositive`
states directly what the corrected validation means for `initialize`. The
refusal reason "loan is not pending" is made up: the code has no such message.

## Left out

- The rate limiter (`domain/limiter.py`) is not modelled. It is about wall-clock time, lock-based concurrency and float rate arithmetic, and the wiring does not use it.
- `TokenRepositoryFactory`, `TokenRepositoryConfig` and `repository/wallet.py` are not modelled. They mint tokens, fund wallets and read config files once at setup.
- Ed25519 verification is the parameter `verify`. Base58 text codecs (`serializable.py`, `LoanObject.validate_wallet`) are not modelled.
- SQL, transaction isolation and concurrent requests are out of scope. Two concurrent `submit`s of one loan can both pass the checks, because there is no row lock. A sequential model cannot show this.
- `LoanFilterOptions`, `ViewLoansCase` and the filtered `perform` call in the HTTP layer are not modelled. The code refers to them but does not define them.
- HTTP handlers, dependency wiring, configuration, logging, migrations and process bootstrap are not modelled.
- The model has no clock. Sleeps are recorded as exact real delays, with no float rounding.
- Only one transfer is in flight per network value. Its submission outcome, on-chain execution and status answers are an oracle.
- TokenGateway.GetAccountAmount: only a JSON-RPC error reply to the balance request is modelled; the model represents it as "the account does not exist", and both make the source return nothing. A transport failure raises out of `get_account_amount` and out of `initialize`; it is not modelled.
- TokenGateway.TransferWith: exceptions from `get_account_info`, `create_associated_token_account` and `get_signature_statuses` are not modelled. In the source they propagate out of `transfer`.
- LendingCases.Submit: database errors other than a missing row are not modelled. In the source, any exception inside the transaction block rolls the transaction back.
- `__get_transaction_error` is not modelled. Its result only goes to a log line, and a rejected transfer returns false whatever it says.
- Amounts are unbounded integers. The 32-bit database column and the 64-bit token amount are not modelled.
- Holdings are plain integers. The model does not keep token balances non-negative.

=== FILE: api_data.dfy ===
/**
 * The pieces of the HTTP schema that carry logic (api/data.py): the status
 * codec between the three literals and `LoanItem.Status`, the `id_` -> `id`
 * key rename, and the validation of a requested amount.
 */
module ApiData {
  import opened Wrappers
  import opened LoanData
  import opened LoanLedger
  import opened TokenGateway
  import opened DomainData
  import opened LendingCases

  /** The literals of `LoanStatus`. */
  const LOAN_STATUS_LITERALS: set<string> := {"PENDING", "ACTIVE", "CLOSED"}

  /**
   * `decode_loan_item_status`: the same-named status for one of the three
   * literals; any other string makes it raise (`None`).
   */
  function DecodeLoanItemStatus(value: string): (r: Option<Status>)
    ensures r.Some? <==> value in LOAN_STATUS_LITERALS
    ensures value == "PENDING" ==> r == Some(Pending)
    ensures value == "ACTIVE" ==> r == Some(Active)
    ensures value == "CLOSED" ==> r == Some(Closed)
  {
    if value == "PENDING" then Some(Pending)
    else if value == "ACTIVE" then Some(Active)
    else if value == "CLOSED" then Some(Closed)
    else None
  }

  /** What the `status` validator may be handed: a literal or a status. */
  datatype StatusField = Literal(text: string) | Enum(status: Status)

  /** `LoanObject.validate_status`: statuses become their names, strings pass through unchanged. */
  function ValidateStatus(value: StatusField): (r: string)
    ensures value.Literal? ==> r == value.text
    ensures value.Enum? ==> r in LOAN_STATUS_LITERALS
  {
    match value
    case Literal(text) => text
    case Enum(Pending) => "PENDING"
    case Enum(Active) => "ACTIVE"
    case Enum(Closed) => "CLOSED"
  }

  /** The three statuses have three distinct names. */
  lemma StatusNamesDistinct(a: Status, b: Status)
    ensures ValidateStatus(Enum(a)) == ValidateStatus(Enum(b)) <==> a == b
  {
  }

  /** Decoding the name of a status gives the status back. */
  lemma StatusRoundTrip(s: Status)
    ensures DecodeLoanItemStatus(ValidateStatus(Enum(s))) == Some(s)
  {
  }

  /** Encoding the status a literal decodes to gives the literal back. */
  lemma LiteralRoundTrip(value: string)
    requires value in LOAN_STATUS_LITERALS
    ensures DecodeLoanItemStatus(value).Some?
    ensures ValidateStatus(Enum(DecodeLoanItemStatus(value).value)) == value
  {
  }

  /**
   * `LoanObject.validate_id`: when the key "id_" is present, its value moves to
   * "id" (replacing any "id" there was); the mapping is otherwise unchanged.
   */
  function ValidateId<V>(value: map<string, V>): (r: map<string, V>)
    ensures "id_" !in value ==> r == value
    ensures "id_" in value ==>
              && "id_" !in r
              && "id" in r && r["id"] == value["id_"]
              && r.Keys == value.Keys - {"id_"} + {"id"}
              && (forall k :: k in value && k != "id_" && k != "id" ==> r[k] == value[k])
  {
    if "id_" !in value then value
    else (value - {"id_"})["id" := value["id_"]]
  }

  /** Renaming is idempotent: a mapping that went through it has nothing left to rename. */
  lemma ValidateIdIdempotent<V>(value: map<string, V>)
    ensures ValidateId(ValidateId(value)) == ValidateId(value)
  {
  }

  /** `LoanRequestObject`: the body of a loan request. */
  datatype LoanRequest = LoanRequest(wallet: Pubkey, amount: Amount)

  /**
   * Validation of a loan request as written: under pydantic 1.x,
   * `Field(exclusiveMinimum=0)` is an unknown keyword that only reaches the
   * JSON schema, so every integer amount is accepted.
   */
  function ParseLoanRequestAsWritten(wallet: Pubkey, amount: Amount): (r: Option<LoanRequest>)
    ensures r.Some? && r.value.wallet == wallet && r.value.amount == amount
  {
    Some(LoanRequest(wallet, amount))
  }

  /**
   * As written, a request for nothing (or for a negative amount) passes
   * validation, and `initialize` records it as a PENDING loan whenever the
   * custodian's balance can be read and the generated id is fresh.
   */
  lemma NonPositiveAmountReachesLedger(repo: TokenRepository, net: Network, ledger: Ledger,
                                       newId: LoanId, wallet: Pubkey, amount: Amount)
    requires amount <= 0
    requires newId !in ledger.rows
    requires GetAccountAmount(repo, net, repo.owner).0.Some? && GetAccountAmount(repo, net, repo.owner).0.value >= 0
    ensures ParseLoanRequestAsWritten(wallet, amount).Some?
    ensures var request := ParseLoanRequestAsWritten(wallet, amount).value;
            Initialize(repo, net, ledger, newId, request.wallet, request.amount).result
              == Success(InitializedUserLoan(LoanItem(newId, Pending, wallet, amount)))
  {
  }

  /** Validation of a loan request as evidently intended (`gt=0`): the amount must be strictly positive. */
  function ParseLoanRequest(wallet: Pubkey, amount: Amount): (r: Option<LoanRequest>)
    ensures r.Some? <==> amount > 0
    ensures r.Some? ==> r.value.wallet == wallet && r.value.amount == amount
  {
    if amount > 0 then Some(LoanRequest(wallet, amount)) else None
  }

  /** With the intended validation, every loan `initialize` records from a request has a positive amount. */
  lemma RecordedLoansArePositive(repo: TokenRepository, net: Network, ledger: Ledger,
                                 newId: LoanId, wallet: Pubkey, amount: Amount)
    requires ParseLoanRequest(wallet, amount).Some?
    ensures var request := ParseLoanRequest(wallet, amount).value;
            var s := Initialize(repo, net, ledger, newId, request.wallet, request.amount);
            && (s.result.Success? && s.result.value.InitializedUserLoan? ==> s.result.value.item.amount > 0)
            && forall id :: id in s.ledger.rows ==> id in ledger.rows || s.ledger.rows[id].amount > 0
  {
  }
}

=== FILE: domain_cases.dfy ===
/**
 * The lending saga (domain/cases.py). `Initialize` checks the custodian's
 * balance and records a PENDING loan; `Submit` checks that the loan exists and
 * that the borrower signed its id, then flips it to ACTIVE inside a ledger
 * transaction that is committed only when the transfer reports success.
 * The two read-only cases page through the ledger.
 *
 * Every case is a pure step from (ledger, network) to (result, ledger,
 * network). Signature verification is the parameter `verify`; the id the
 * database generates for a new row is the parameter `newId`.
 */
module LendingCases {
  import opened Wrappers
  import opened LoanData
  import opened LoanLedger
  import opened Iterable
  import opened TokenGateway
  import opened DomainData

  const FAILED_TO_GET_AMOUNT: string := "failed to get token amount on source account"
  const INSUFFICIENT_AMOUNT: string := "insufficient token amount on source account"
  const LOAN_NOT_FOUND: string := "loan was not found"
  const INVALID_SIGNATURE: string := "provided signature is invalid"
  const TRANSFER_FAILED: string := "transfer process failed unexpectedly"
  /** The refusal the corrected `Submit` gives for a loan that is no longer pending. */
  const LOAN_NOT_PENDING: string := "loan is not pending"

  /** Ed25519 verification of a signature by a public key over a message. */
  type Verifier = (Pubkey, seq<Byte>, Signature) -> bool

  /**
   * A use case's outcome: its result, or the database error it raised, and
   * the ledger and network it leaves behind.
   */
  datatype Step<T> = Step(result: Result<T, LedgerError>, ledger: Ledger, network: Network)

  /**
   * `__validate_signature`: the signature verifies under the loan's address
   * over its id's bytes, the one sixteen-byte message that decodes to the id.
   */
  function ValidateSignature(verify: Verifier, loan: LoanItem, signature: Signature): (ok: bool)
    ensures forall m :: |m| == 16 && FromBigEndian(m) == loan.id ==> (ok <==> verify(loan.address, m, signature))
  {
    UuidBytesUnique(loan.id);
    verify(loan.address, UuidBytes(loan.id), signature)
  }

  /** `UserLendingCase.initialize`. */
  function Initialize(repo: TokenRepository, net: Network, ledger: Ledger,
                      newId: LoanId, address: Pubkey, amount: Amount): (s: Step<InitializedUserLoanResult>)
    // only the owner's balance is read: no account is created and no token moves
    ensures s.network == GetAccountAmount(repo, net, repo.owner).1
    ensures s.network.holdings == net.holdings
    ensures GetAccountAmount(repo, net, repo.owner).0.None? ==>
              s.result == Success(InitializeFailed(FAILED_TO_GET_AMOUNT)) && s.ledger == ledger
    ensures GetAccountAmount(repo, net, repo.owner).0.Some? && amount > GetAccountAmount(repo, net, repo.owner).0.value ==>
              s.result == Success(InitializeFailed(INSUFFICIENT_AMOUNT)) && s.ledger == ledger
    ensures s.result.Success? && s.result.value.InitializedUserLoan? <==>
              && GetAccountAmount(repo, net, repo.owner).0.Some?
              && amount <= GetAccountAmount(repo, net, repo.owner).0.value
              && newId !in ledger.rows
    ensures s.result.Success? && s.result.value.InitializedUserLoan? ==>
              && s.result.value.item == LoanItem(newId, Pending, address, amount)
              && Count(s.ledger) == Count(ledger) + 1
              && GetById(s.ledger, newId) == Some(s.result.value.item)
              && (forall id :: id in ledger.rows ==> GetById(s.ledger, id) == GetById(ledger, id))
    // a generated id that is already stored makes `create` raise, and nothing catches it
    ensures GetAccountAmount(repo, net, repo.owner).0.Some? && amount <= GetAccountAmount(repo, net, repo.owner).0.value
            && newId in ledger.rows ==>
              s.result == Failure(UniqueViolation) && s.ledger == ledger
    ensures s.result.Failure? ==> s.result.error == UniqueViolation && s.ledger == ledger
    ensures s.result.Success? && s.result.value.InitializeFailed? ==> s.ledger == ledger
    ensures WellKeyed(ledger) ==> WellKeyed(s.ledger)
  {
    var (available, net') := GetAccountAmount(repo, net, repo.owner);
    if available.None? then Step(Success(InitializeFailed(FAILED_TO_GET_AMOUNT)), ledger, net')
    else if amount > available.value then Step(Success(InitializeFailed(INSUFFICIENT_AMOUNT)), ledger, net')
    else match Create(ledger, newId, Pending, address, amount)
      case Failure(e) => Step(Failure(e), ledger, net')
      case Success((ledger', pending)) => Step(Success(InitializedUserLoan(pending)), ledger', net')
  }

  /**
   * The settling step of `submit`: inside a transaction, write the loan back
   * as ACTIVE and transfer its amount to its address; commit when the
   * transfer reports success, roll back otherwise (and on an exception).
   */
  function Settle(repo: TokenRepository, net: Network, ledger: Ledger, loan: LoanItem, check: StatusCheck)
    : (s: Step<SubmittedUserLoanResult>)
  {
    var tx := Begin(ledger, loan.id);
    match UpdateExistingById(tx.working, loan.(status := Active))
    case Failure(e) => Step(Failure(e), Rollback(tx), net)
    case Success((working, active)) =>
      var (ok, net') := TransferWith(repo, net, active.address, active.amount, check);
      var tx' := Write(tx, working);
      if ok then Step(Success(SubmittedUserLoan(active)), Commit(tx'), net')
      else Step(Success(SubmitFailed(TRANSFER_FAILED)), Rollback(tx'), net')
  }

  /**
   * `UserLendingCase.submit` as written: no check that the loan is still
   * pending, and the transfer as written.
   */
  function SubmitAsWritten(repo: TokenRepository, net: Network, ledger: Ledger, verify: Verifier,
                           loanId: LoanId, signature: Signature): (s: Step<SubmittedUserLoanResult>)
    ensures GetById(ledger, loanId).None? ==>
              s == Step(Success(SubmitFailed(LOAN_NOT_FOUND)), ledger, net)
    ensures GetById(ledger, loanId).Some? && !ValidateSignature(verify, GetById(ledger, loanId).value, signature) ==>
              s == Step(Success(SubmitFailed(INVALID_SIGNATURE)), ledger, net)
    // the ledger changes only when the transfer reported success
    ensures s.ledger == ledger || (s.result.Success? && s.result.value.SubmittedUserLoan?)
    // a failed transfer rolls the ledger back, but whatever it did on the network stays
    ensures s.result == Success(SubmitFailed(TRANSFER_FAILED)) ==>
              && s.ledger == ledger
              && !TransferAsWritten(repo, net, GetById(ledger, loanId).value.address, GetById(ledger, loanId).value.amount).0
              && s.network == TransferAsWritten(repo, net, GetById(ledger, loanId).value.address,
                                                GetById(ledger, loanId).value.amount).1
    // a found loan with a valid signature whose transfer reports false fails with exactly this reason
    ensures WellKeyed(ledger) && GetById(ledger, loanId).Some?
            && ValidateSignature(verify, GetById(ledger, loanId).value, signature)
            && !TransferAsWritten(repo, net, GetById(ledger, loanId).value.address, GetById(ledger, loanId).value.amount).0
            ==> s.result == Success(SubmitFailed(TRANSFER_FAILED))
    // a found loan with a valid signature is submitted whenever the transfer reports true
    ensures WellKeyed(ledger) && GetById(ledger, loanId).Some?
            && ValidateSignature(verify, GetById(ledger, loanId).value, signature)
            && TransferAsWritten(repo, net, GetById(ledger, loanId).value.address, GetById(ledger, loanId).value.amount).0
            ==> s.result.Success? && s.result.value.SubmittedUserLoan?
    // whatever the stored status was, success writes the loan back as ACTIVE and returns it
    ensures s.result.Success? && s.result.value.SubmittedUserLoan? ==>
              var loan := GetById(ledger, loanId).value;
              && ValidateSignature(verify, loan, signature)
              && TransferAsWritten(repo, net, loan.address, loan.amount).0
              && s.network == TransferAsWritten(repo, net, loan.address, loan.amount).1
              && s.result.value.item == LoanItem(loan.id, Active, loan.address, loan.amount)
              && GetById(s.ledger, loan.id) == Some(s.result.value.item)
              && (forall id :: id != loan.id ==> GetById(s.ledger, id) == GetById(ledger, id))
              && Count(s.ledger) == Count(ledger)
    ensures WellKeyed(ledger) ==> s.result.Success? && WellKeyed(s.ledger)
  {
    match GetById(ledger, loanId)
    case None => Step(Success(SubmitFailed(LOAN_NOT_FOUND)), ledger, net)
    case Some(loan) =>
      if !ValidateSignature(verify, loan, signature) then Step(Success(SubmitFailed(INVALID_SIGNATURE)), ledger, net)
      else Settle(repo, net, ledger, loan, LevelReached(Finalized))
  }

  /**
   * `UserLendingCase.submit` as evidently intended: a loan that is no longer
   * pending is refused before anything is written or sent, and the transfer
   * counts as successful only when it was finalized without an error.
   */
  function Submit(repo: TokenRepository, net: Network, ledger: Ledger, verify: Verifier,
                  loanId: LoanId, signature: Signature): (s: Step<SubmittedUserLoanResult>)
    // refusals happen in this order and touch neither the ledger nor the network
    ensures GetById(ledger, loanId).None? ==>
              s == Step(Success(SubmitFailed(LOAN_NOT_FOUND)), ledger, net)
    ensures GetById(ledger, loanId).Some? && !ValidateSignature(verify, GetById(ledger, loanId).value, signature) ==>
              s == Step(Success(SubmitFailed(INVALID_SIGNATURE)), ledger, net)
    ensures GetById(ledger, loanId).Some? && ValidateSignature(verify, GetById(ledger, loanId).value, signature)
            && GetById(ledger, loanId).value.status != Pending ==>
              s == Step(Success(SubmitFailed(LOAN_NOT_PENDING)), ledger, net)
    // the ledger never runs ahead of the transfer
    ensures s.ledger == ledger || (s.result.Success? && s.result.value.SubmittedUserLoan?)
    ensures s.result == Success(SubmitFailed(TRANSFER_FAILED)) ==>
              && s.ledger == ledger
              && !Transfer(repo, net, GetById(ledger, loanId).value.address, GetById(ledger, loanId).value.amount).0
              && s.network == Transfer(repo, net, GetById(ledger, loanId).value.address, GetById(ledger, loanId).value.amount).1
    // and a pending loan with a valid signature whose transfer reports false fails with exactly this reason
    ensures WellKeyed(ledger) && GetById(ledger, loanId).Some?
            && ValidateSignature(verify, GetById(ledger, loanId).value, signature)
            && GetById(ledger, loanId).value.status == Pending
            && !Transfer(repo, net, GetById(ledger, loanId).value.address, GetById(ledger, loanId).value.amount).0
            ==> s.result == Success(SubmitFailed(TRANSFER_FAILED))
    ensures s.result.Success? && s.result.value.SubmittedUserLoan? ==>
              var loan := GetById(ledger, loanId).value;
              && ValidateSignature(verify, loan, signature)
              && loan.status == Pending
              && Transfer(repo, net, loan.address, loan.amount).0
              && s.network == Transfer(repo, net, loan.address, loan.amount).1
              && s.result.value.item == LoanItem(loan.id, Active, loan.address, loan.amount)
              && GetById(s.ledger, loan.id) == Some(s.result.value.item)
              && (forall id :: id != loan.id ==> GetById(s.ledger, id) == GetById(ledger, id))
              && Count(s.ledger) == Count(ledger)
    ensures WellKeyed(ledger) ==> s.result.Success? && WellKeyed(s.ledger)
    ensures WellKeyed(ledger) && s.result.Success? && s.result.value.SubmittedUserLoan? ==>
              s.result.value.item.id == loanId
  {
    match GetById(ledger, loanId)
    case None => Step(Success(SubmitFailed(LOAN_NOT_FOUND)), ledger, net)
    case Some(loan) =>
      if !ValidateSignature(verify, loan, signature) then Step(Success(SubmitFailed(INVALID_SIGNATURE)), ledger, net)
      else if loan.status != Pending then Step(Success(SubmitFailed(LOAN_NOT_PENDING)), ledger, net)
      else Settle(repo, net, ledger, loan, SucceededAtLevel(Finalized))
  }

  /** `ViewAllLoansCase.perform`: the total row count with one page of rows; nothing is written. */
  function ViewAllLoans(ledger: Ledger, scan: seq<LoanId>, pagination: PaginationOptions)
    : (r: Result<ItemsView<LoanItem>, LedgerError>)
    requires IsScanOrder(ledger, scan)
    ensures r.Success? <==> 0 <= pagination.offset && 0 <= pagination.limit
    ensures r.Success? ==>
              && r.value.info == ItemsInfo(pagination.offset, pagination.limit, Count(ledger))
              && Find(ledger, scan, pagination) == Success(r.value.items)
              && |r.value.items| <= pagination.limit
              && |r.value.items| <= r.value.info.total
  {
    var total := Count(ledger);
    match Find(ledger, scan, pagination)
    case Failure(e) => Failure(e)
    case Success(items) =>
      ScanOrderLength(ledger, scan);
      Success(ItemsView(ItemsInfo(pagination.offset, pagination.limit, total), items))
  }

  /** `ViewUserLoansCase.perform`: always raises, because `count_by_address` does. */
  function ViewUserLoans(ledger: Ledger, key: Pubkey, pagination: PaginationOptions)
    : (r: Result<ItemsView<LoanItem>, LedgerError>)
    ensures r == Failure(NotImplemented)
  {
    // `count_by_address` never returns, so the `find_by_address` call that follows it is dead code
    Failure(CountByAddress(ledger, key).error)
  }

  /** A submit that fails leaves every later count and page exactly as before. */
  lemma FailedSubmitKeepsReads(repo: TokenRepository, net: Network, ledger: Ledger, verify: Verifier,
                               loanId: LoanId, signature: Signature, scan: seq<LoanId>, pagination: PaginationOptions)
    requires IsScanOrder(ledger, scan)
    requires Submit(repo, net, ledger, verify, loanId, signature).result.Success?
    requires Submit(repo, net, ledger, verify, loanId, signature).result.value.SubmitFailed?
    ensures var after := Submit(repo, net, ledger, verify, loanId, signature).ledger;
            && IsScanOrder(after, scan)
            && Count(after) == Count(ledger)
            && Find(after, scan, pagination) == Find(ledger, scan, pagination)
  {
  }

  /**
   * On a coherent network, a pending loan with a valid signature whose
   * transfer is confirmed is submitted, and the borrower's token account
   * ends up holding exactly the loan amount more than before.
   */
  lemma SubmitDeliversAmount(repo: TokenRepository, net: Network, ledger: Ledger, verify: Verifier,
                             loanId: LoanId, signature: Signature)
    requires Coherent(net)
    requires WellKeyed(ledger)
    requires loanId in ledger.rows && ledger.rows[loanId].status == Pending
    requires ValidateSignature(verify, ledger.rows[loanId], signature)
    requires ConfirmsSuccess(net)
    ensures var s := Submit(repo, net, ledger, verify, loanId, signature);
            var loan := ledger.rows[loanId];
            && s.result.Success? && s.result.value.SubmittedUserLoan?
            && (loan.address != repo.owner ==>
                  BalanceOf(s.network, GetAccount(repo, loan.address))
                  == BalanceOf(net, GetAccount(repo, loan.address)) + loan.amount)
  {
  }

  /**
   * A stored pending loan with a valid signature, on a network that confirms
   * the transfer, is submitted, leaving the network as the transfer does.
   */
  lemma SubmitSucceeds(repo: TokenRepository, net: Network, ledger: Ledger, verify: Verifier,
                       loanId: LoanId, signature: Signature)
    requires WellKeyed(ledger)
    requires loanId in ledger.rows && ledger.rows[loanId].status == Pending
    requires ValidateSignature(verify, ledger.rows[loanId], signature)
    requires ConfirmsSuccess(net)
    ensures var s := Submit(repo, net, ledger, verify, loanId, signature);
            && s.result.Success? && s.result.value.SubmittedUserLoan?
            && s.network == Transfer(repo, net, ledger.rows[loanId].address, ledger.rows[loanId].amount).1
  {
  }

  /**
   * A loan is paid out at most once: once a submit succeeded, every later
   * submit of the same loan is refused without touching ledger or network.
   */
  lemma SubmitAtMostOnce(repo: TokenRepository, net: Network, ledger: Ledger, verify: Verifier,
                         loanId: LoanId, signature: Signature, net2: Network, verify2: Verifier, signature2: Signature)
    requires WellKeyed(ledger)
    requires loanId in ledger.rows && ledger.rows[loanId].status == Pending
    requires ValidateSignature(verify, ledger.rows[loanId], signature)
    requires ConfirmsSuccess(net)
    ensures var first := Submit(repo, net, ledger, verify, loanId, signature);
            var again := Submit(repo, net2, first.ledger, verify2, loanId, signature2);
            && first.result.Success? && first.result.value.SubmittedUserLoan?
            && again.result.Success?
            && again.result.value.SubmitFailed?
            && again.ledger == first.ledger
            && again.network == net2
  {
  }

  /** A network that accepts and executes a transfer and reports it finalized without error at once. */
  ghost predicate PaysOut(net: Network) {
    && net.submission.Accepted?
    && net.submission.executed
    && |net.submission.responses| > 0
    && net.submission.responses[0] == Some(TxStatus(None, Some(Finalized)))
  }

  /**
   * The code as written never checks that the loan is still pending: the
   * borrower can submit the same signature twice and is paid twice. The
   * corrected `Submit` refuses the second attempt.
   */
  lemma SubmitAsWrittenPaysTwice(repo: TokenRepository, net: Network, ledger: Ledger, verify: Verifier,
                                 loanId: LoanId, signature: Signature)
    requires WellKeyed(ledger)
    requires loanId in ledger.rows && ledger.rows[loanId].status == Pending
    requires ledger.rows[loanId].address != repo.owner
    requires ValidateSignature(verify, ledger.rows[loanId], signature)
    requires PaysOut(net)
    ensures var loan := ledger.rows[loanId];
            var first := SubmitAsWritten(repo, net, ledger, verify, loanId, signature);
            var second := SubmitAsWritten(repo, first.network, first.ledger, verify, loanId, signature);
            && first.result.Success? && first.result.value.SubmittedUserLoan?
            && second.result.Success? && second.result.value.SubmittedUserLoan?
            && BalanceOf(second.network, GetAccount(repo, loan.address))
               == BalanceOf(net, GetAccount(repo, loan.address)) + 2 * loan.amount
    ensures var first := Submit(repo, net, ledger, verify, loanId, signature);
            var second := Submit(repo, first.network, first.ledger, verify, loanId, signature);
            && first.result.Success? && first.result.value.SubmittedUserLoan?
            && second.result == Success(SubmitFailed(LOAN_NOT_PENDING))
  {
  }

  /**
   * The loan lifecycle: `initialize` only adds PENDING rows, the corrected
   * `submit` only turns a PENDING row into an ACTIVE one with the same id,
   * address and amount, and nothing ever reaches CLOSED.
   */
  lemma LifecycleSteps(repo: TokenRepository, net: Network, ledger: Ledger, verify: Verifier,
                        loanId: LoanId, signature: Signature, newId: LoanId, address: Pubkey, amount: Amount)
    requires WellKeyed(ledger)
    ensures var after := Initialize(repo, net, ledger, newId, address, amount).ledger;
            forall id :: id in after.rows ==>
              (id in ledger.rows && after.rows[id] == ledger.rows[id]) || after.rows[id].status == Pending
    ensures var after := Submit(repo, net, ledger, verify, loanId, signature).ledger;
            && after.rows.Keys == ledger.rows.Keys
            && forall id :: id in after.rows ==>
                 after.rows[id] == ledger.rows[id]
                 || (ledger.rows[id].status == Pending && after.rows[id] == ledger.rows[id].(status := Active))
  {
    InitializeOnlyAddsPending(repo, net, ledger, newId, address, amount);
    SubmitOnlyActivates(repo, net, ledger, verify, loanId, signature);
  }

  lemma InitializeOnlyAddsPending(repo: TokenRepository, net: Network, ledger: Ledger,
                                  newId: LoanId, address: Pubkey, amount: Amount)
    ensures var after := Initialize(repo, net, ledger, newId, address, amount).ledger;
            forall id :: id in after.rows ==>
              (id in ledger.rows && after.rows[id] == ledger.rows[id]) || after.rows[id].status == Pending
  {
  }

  lemma SubmitOnlyActivates(repo: TokenRepository, net: Network, ledger: Ledger, verify: Verifier,
                            loanId: LoanId, signature: Signature)
    requires WellKeyed(ledger)
    ensures var after := Submit(repo, net, ledger, verify, loanId, signature).ledger;
            && after.rows.Keys == ledger.rows.Keys
            && forall id :: id in after.rows ==>
                 after.rows[id] == ledger.rows[id]
                 || (ledger.rows[id].status == Pending && after.rows[id] == ledger.rows[id].(status := Active))
  {
    var s := Submit(repo, net, ledger, verify, loanId, signature);
    if s.ledger != ledger {
      // only a successful submit writes, and it writes exactly the row under `loanId`
      assert s.result.Success? && s.result.value.SubmittedUserLoan?;
      var loan := ledger.rows[loanId];
      assert s.ledger.rows[loanId] == loan.(status := Active);
    }
  }

  /**
   * The network can run ahead of the ledger: a transfer the network accepts
   * and executes but never reports confirmed makes the submit fail and the
   * ledger roll back, while the borrower's account has received the amount.
   * The code as written behaves the same way.
   */
  lemma UnconfirmedTransferRunsAhead(repo: TokenRepository, net: Network, ledger: Ledger, verify: Verifier,
                                     loanId: LoanId, signature: Signature, transferSignature: Signature)
    requires WellKeyed(ledger)
    requires loanId in ledger.rows && ledger.rows[loanId].status == Pending
    requires ledger.rows[loanId].address != repo.owner
    requires ValidateSignature(verify, ledger.rows[loanId], signature)
    requires net.submission == Accepted(transferSignature, true, [])
    ensures var loan := ledger.rows[loanId];
            var s := Submit(repo, net, ledger, verify, loanId, signature);
            && s.result == Success(SubmitFailed(TRANSFER_FAILED))
            && s.ledger == ledger
            && BalanceOf(s.network, GetAccount(repo, loan.address)) == BalanceOf(net, GetAccount(repo, loan.address)) + loan.amount
    ensures var loan := ledger.rows[loanId];
            var s := SubmitAsWritten(repo, net, ledger, verify, loanId, signature);
            && s.result == Success(SubmitFailed(TRANSFER_FAILED))
            && s.ledger == ledger
            && BalanceOf(s.network, GetAccount(repo, loan.address)) == BalanceOf(net, GetAccount(repo, loan.address)) + loan.amount
  {
  }

  /**
   * A request without paging options on a table of at most a thousand rows
   * lists every stored loan, and reports the offset and limit defaults.
   */
  lemma DefaultPageListsSmallTable(ledger: Ledger, scan: seq<LoanId>)
    requires WellKeyed(ledger)
    requires IsScanOrder(ledger, scan)
    requires Count(ledger) <= DefaultPagination.limit
    ensures var r := ViewAllLoans(ledger, scan, DefaultPagination);
            && r.Success?
            && r.value.info == ItemsInfo(0, 1000, Count(ledger))
            && |r.value.items| == Count(ledger)
            && forall id :: id in ledger.rows ==> ledger.rows[id] in r.value.items
  {
    FindWholeTable(ledger, scan, DefaultPagination.limit);
  }
}

=== FILE: domain_data.dfy ===
/** Results of the lending use cases and the paged view (domain/data.py). */
module DomainData {
  import opened LoanData

  /** What `initialize` returns: the pending loan, or the reason it was refused. */
  datatype InitializedUserLoanResult =
    | InitializedUserLoan(item: LoanItem)
    | InitializeFailed(error: string)

  /** What `submit` returns: the active loan, or the reason it was refused. */
  datatype SubmittedUserLoanResult =
    | SubmittedUserLoan(item: LoanItem)
    | SubmitFailed(error: string)

  /** `ItemsView.Info`: the paging that was asked for and the total number of items. */
  datatype ItemsInfo = ItemsInfo(offset: int, limit: int, total: int)

  /** `ItemsView`: one page of items with its paging information. */
  datatype ItemsView<T> = ItemsView(info: ItemsInfo, items: seq<T>)
}

=== FILE: repository_data.dfy ===
/**
 * The records the lending service stores: loan items, their status,
 * pagination options, and the opaque key types they are built from
 * (repository/data.py).
 */
module LoanData {

  /** An unsigned byte. */
  type Byte = x: nat | x < 256

  /** 256^n: the number of values an n-byte big-endian string can hold. */
  function Pow256(n: nat): (p: nat)
    ensures p >= 1
  {
    if n == 0 then 1 else 256 * Pow256(n - 1)
  }

  /** Exclusive upper bound of a 128-bit UUID (sixteen bytes). */
  const UUID_BOUND: nat := Pow256(16)

  /** A loan identifier: a UUID, seen as a 128-bit number; no further invariant. */
  type LoanId = x: nat | x < UUID_BOUND

  /** A token quantity in the asset's smallest unit; a plain integer at this layer. */
  type Amount = int

  /**
   * An address on the asset network. Wallet keys are opaque byte strings; the
   * associated token account of a wallet for a mint is a derived address, modelled
   * as its own constructor so that derivation is injective and never yields a
   * wallet key.
   */
  datatype Pubkey = Key(bytes: seq<Byte>) | Associated(wallet: Pubkey, mint: Pubkey)

  /** An Ed25519 signature, opaque to this model. */
  datatype Signature = Signature(bytes: seq<Byte>)

  /** Offset/limit paging; the dataclass does no validation of its own. */
  datatype PaginationOptions = PaginationOptions(offset: int, limit: int)

  /** The defaults of `PaginationOptions()`: from the first row, at most a thousand rows. */
  const DefaultPagination: PaginationOptions := PaginationOptions(0, 1000)

  /** `LoanItem.Status`: the three states of a loan. */
  datatype Status = Pending | Active | Closed

  /** An immutable loan record. */
  datatype LoanItem = LoanItem(id: LoanId, status: Status, address: Pubkey, amount: Amount)

  /** The first `n` bytes of `x`, most significant first. */
  function ToBigEndian(x: nat, n: nat): (b: seq<Byte>)
    requires x < Pow256(n)
    ensures |b| == n
    decreases n
  {
    if n == 0 then []
    else ToBigEndian(x / 256, n - 1) + [x % 256]
  }

  /** The number a big-endian byte string denotes. */
  function FromBigEndian(b: seq<Byte>): (x: nat)
    ensures x < Pow256(|b|)
  {
    if |b| == 0 then 0
    else FromBigEndian(b[..|b| - 1]) * 256 + b[|b| - 1]
  }

  lemma {:induction false} BigEndianRoundTrip(x: nat, n: nat)
    requires x < Pow256(n)
    ensures FromBigEndian(ToBigEndian(x, n)) == x
    decreases n
  {
    if n > 0 {
      var b := ToBigEndian(x, n);
      assert b[..|b| - 1] == ToBigEndian(x / 256, n - 1);
      BigEndianRoundTrip(x / 256, n - 1);
    }
  }

  /** A byte string is the big-endian encoding of the number it denotes, at its own width. */
  lemma {:induction false} BigEndianCanonical(b: seq<Byte>)
    ensures ToBigEndian(FromBigEndian(b), |b|) == b
    decreases |b|
  {
    if |b| > 0 {
      var init := b[..|b| - 1];
      BigEndianCanonical(init);
      var x := FromBigEndian(b);
      assert x / 256 == FromBigEndian(init) && x % 256 == b[|b| - 1];
      assert b == init + [b[|b| - 1]];
    }
  }

  /** `uuid.UUID.bytes`: the sixteen big-endian bytes of the identifier. */
  function UuidBytes(id: LoanId): (b: seq<Byte>)
    ensures |b| == 16
    ensures FromBigEndian(b) == id
  {
    BigEndianRoundTrip(id, 16);
    ToBigEndian(id, 16)
  }

  /** Distinct loans are signed over distinct messages. */
  lemma UuidBytesInjective(a: LoanId, b: LoanId)
    ensures UuidBytes(a) == UuidBytes(b) <==> a == b
  {
  }

  /** The sixteen bytes of an id are the only sixteen-byte string that decodes to it. */
  lemma UuidBytesUnique(id: LoanId)
    ensures forall m :: |m| == 16 && FromBigEndian(m) == id ==> m == UuidBytes(id)
  {
    forall m | |m| == 16 && FromBigEndian(m) == id
      ensures m == UuidBytes(id)
    {
      BigEndianCanonical(m);
    }
  }
}

=== FILE: repository_iterable.dfy ===
/**
 * Bounded retry with exponential back-off (repository/iterable.py): the
 * attempt/sleep schedule of `iter_with_exp_delay` and the confirmation
 * poller `wait_for_signature_status` that consumes it. Delays are exact reals.
 */
module Iterable {
  import opened Wrappers

  const DEFAULT_EXP_MAX_ATTEMPTS: int := 10
  const DEFAULT_EXP_INITIAL: real := 1.0
  const DEFAULT_EXP_ALPHA: real := 1.5

  function Pow(x: real, k: nat): real {
    if k == 0 then 1.0 else x * Pow(x, k - 1)
  }

  /** The sleep that follows attempt `attempt`. */
  function Delay(initial: real, alpha: real, attempt: nat): real {
    initial * Pow(alpha, attempt)
  }

  /** What the generator does, in order: hand out an attempt index, or sleep. */
  datatype Event = Attempt(index: nat) | Sleep(seconds: real)

  /**
   * The schedule seen by a consumer that starts at `attempt`: attempt k sits at
   * position 2(k - attempt) and the sleep after it right behind it.
   */
  ghost predicate ScheduleShape(t: seq<Event>, attempt: nat, initial: real, alpha: real) {
    forall i :: 0 <= i < |t| ==>
      t[i] == if i % 2 == 0 then Attempt(attempt + i / 2) else Sleep(Delay(initial, alpha, attempt + i / 2))
  }

  /** Prepending attempt `attempt` (and, optionally, its sleep) keeps the shape. */
  lemma ShapeCons(rest: seq<Event>, attempt: nat, withSleep: bool, initial: real, alpha: real)
    requires withSleep || rest == []
    requires ScheduleShape(rest, attempt + 1, initial, alpha)
    ensures ScheduleShape([Attempt(attempt)] + (if withSleep then [Sleep(Delay(initial, alpha, attempt))] else []) + rest,
                          attempt, initial, alpha)
  {
  }

  /** The loop of `iter_with_exp_delay` from `attempt` on, consumed to the end. */
  function ExpDelayFrom(attempt: nat, maxAttempts: int, initial: real, alpha: real): (t: seq<Event>)
    ensures attempt >= maxAttempts ==> t == []
    ensures attempt < maxAttempts ==> |t| == 2 * (maxAttempts - attempt) - 1
    ensures ScheduleShape(t, attempt, initial, alpha)
    decreases maxAttempts - attempt
  {
    if attempt >= maxAttempts then []
    else
      var rest := ExpDelayFrom(attempt + 1, maxAttempts, initial, alpha);
      ShapeCons(rest, attempt, attempt + 1 < maxAttempts, initial, alpha);
      [Attempt(attempt)] + (if attempt + 1 < maxAttempts then [Sleep(Delay(initial, alpha, attempt))] else []) + rest
  }

  /** `iter_with_exp_delay(max_attempts, initial, alpha)`, consumed to the end. */
  function IterWithExpDelay(maxAttempts: int, initial: real, alpha: real): (t: seq<Event>)
    ensures maxAttempts <= 0 ==> t == []
    ensures maxAttempts > 0 ==> |t| == 2 * maxAttempts - 1 && t[|t| - 1] == Attempt(maxAttempts - 1)
    ensures ScheduleShape(t, 0, initial, alpha)
  {
    ExpDelayFrom(0, maxAttempts, initial, alpha)
  }

  /** The attempt indices a trace hands out, in order. */
  function Attempts(t: seq<Event>): seq<nat> {
    if |t| == 0 then []
    else (if t[0].Attempt? then [t[0].index] else []) + Attempts(t[1..])
  }

  /** The sleeps a trace performs, in order. */
  function Sleeps(t: seq<Event>): seq<real> {
    if |t| == 0 then []
    else (if t[0].Sleep? then [t[0].seconds] else []) + Sleeps(t[1..])
  }

  /**
   * A schedule of length 2n - 1 starting at `attempt` hands out exactly
   * `attempt`, ..., `attempt + n - 1` and sleeps n - 1 times, the k-th sleep
   * being `initial * alpha^(attempt + k)`.
   */
  lemma {:induction false} ScheduleContents(t: seq<Event>, attempt: nat, n: nat, initial: real, alpha: real)
    requires ScheduleShape(t, attempt, initial, alpha)
    requires |t| == 2 * n - 1
    ensures |Attempts(t)| == n && forall k :: 0 <= k < n ==> Attempts(t)[k] == attempt + k
    ensures |Sleeps(t)| == n - 1 && forall k :: 0 <= k < n - 1 ==> Sleeps(t)[k] == Delay(initial, alpha, attempt + k)
    decreases n
  {
    if n == 1 {
      assert t == [Attempt(attempt)];
      assert Attempts(t) == [attempt] + Attempts(t[1..]);
      assert Sleeps(t) == Sleeps(t[1..]);
    } else {
      var rest := t[2..];
      assert ScheduleShape(rest, attempt + 1, initial, alpha) by {
        forall i | 0 <= i < |rest|
          ensures rest[i] == if i % 2 == 0 then Attempt(attempt + 1 + i / 2)
                             else Sleep(Delay(initial, alpha, attempt + 1 + i / 2))
        {
          assert rest[i] == t[i + 2];
        }
      }
      ScheduleContents(rest, attempt + 1, n - 1, initial, alpha);
      assert t[0] == Attempt(attempt);
      assert t[1] == Sleep(Delay(initial, alpha, attempt));
      assert t[1..][1..] == rest;
      assert Attempts(t) == [attempt] + Attempts(rest);
      assert Sleeps(t) == [Delay(initial, alpha, attempt)] + Sleeps(rest);
    }
  }

  /**
   * `iter_with_exp_delay(n, ...)` yields 0, 1, ..., n - 1 in order and sleeps
   * between attempts, initial * alpha^k after attempt k, never after the last.
   */
  lemma IterWithExpDelayContents(n: int, initial: real, alpha: real)
    ensures var attempts := Attempts(IterWithExpDelay(n, initial, alpha));
            |attempts| == (if n > 0 then n else 0) && forall k :: 0 <= k < |attempts| ==> attempts[k] == k
    ensures var sleeps := Sleeps(IterWithExpDelay(n, initial, alpha));
            |sleeps| == (if n > 0 then n - 1 else 0) && forall k :: 0 <= k < |sleeps| ==> sleeps[k] == Delay(initial, alpha, k)
  {
    if n > 0 {
      ScheduleContents(IterWithExpDelay(n, initial, alpha), 0, n, initial, alpha);
    }
  }

  /** `TransactionConfirmationStatus`. */
  datatype Confirmation = Processed | Confirmed | Finalized

  /** The error a transaction failed with on-chain. */
  datatype TxError = TxError(reason: string)

  /** `TransactionStatus`: the on-chain error, if any, and the confirmation level reached. */
  datatype TxStatus = TxStatus(err: Option<TxError>, confirmationStatus: Option<Confirmation>)

  /** What makes the poller stop. */
  datatype StatusCheck =
    | LevelReached(level: Confirmation)      // the confirmation level alone
    | SucceededAtLevel(level: Confirmation)  // the level, and no on-chain error

  predicate Accepts(check: StatusCheck, status: Option<TxStatus>) {
    match check
    case LevelReached(level) =>
      status.Some? && status.value.confirmationStatus == Some(level)
    case SucceededAtLevel(level) =>
      status.Some? && status.value.confirmationStatus == Some(level) && status.value.err.None?
  }

  /**
   * The answer to the k-th `get_signature_statuses` query; `responses` lists
   * them in order and a query beyond its end finds no status.
   */
  function StatusAt(responses: seq<Option<TxStatus>>, k: nat): Option<TxStatus> {
    if k < |responses| then responses[k] else None
  }

  /** Whether the poller stopped on a matching status, and what it did on the way. */
  datatype PollResult = PollResult(ok: bool, queries: nat, trace: seq<Event>)

  /** The poller from attempt `attempt` on. */
  function PollFrom(responses: seq<Option<TxStatus>>, check: StatusCheck, attempt: nat,
                    maxAttempts: int, initial: real, alpha: real): (r: PollResult)
    ensures r.queries <= if attempt < maxAttempts then maxAttempts - attempt else 0
    ensures r.queries == 0 <==> attempt >= maxAttempts
    ensures |r.trace| == if r.queries == 0 then 0 else 2 * r.queries - 1
    ensures r.trace == ExpDelayFrom(attempt, maxAttempts, initial, alpha)[..|r.trace|]
    ensures forall k :: attempt <= k < attempt + r.queries - 1 ==> !Accepts(check, StatusAt(responses, k))
    ensures r.ok ==> r.queries > 0 && Accepts(check, StatusAt(responses, attempt + r.queries - 1))
    ensures !r.ok ==> r.queries == (if attempt < maxAttempts then maxAttempts - attempt else 0)
                      && forall k :: attempt <= k < maxAttempts ==> !Accepts(check, StatusAt(responses, k))
    decreases maxAttempts - attempt
  {
    if attempt >= maxAttempts then PollResult(false, 0, [])
    else if Accepts(check, StatusAt(responses, attempt)) then PollResult(true, 1, [Attempt(attempt)])
    else
      var sleep := if attempt + 1 < maxAttempts then [Sleep(Delay(initial, alpha, attempt))] else [];
      var rest := PollFrom(responses, check, attempt + 1, maxAttempts, initial, alpha);
      PollResult(rest.ok, rest.queries + 1, [Attempt(attempt)] + sleep + rest.trace)
  }

  /**
   * `wait_for_signature_status`: query up to `maxAttempts` times, sleeping
   * between queries as `iter_with_exp_delay` does; true exactly when some
   * queried status has reached confirmation level `expected`.
   */
  function WaitForSignatureStatus(responses: seq<Option<TxStatus>>, expected: Confirmation,
                                  maxAttempts: int, initial: real, alpha: real): (r: PollResult)
    ensures r.ok <==> exists k :: 0 <= k < maxAttempts && Accepts(LevelReached(expected), StatusAt(responses, k))
    ensures r.queries <= if maxAttempts > 0 then maxAttempts else 0
    ensures r.queries == 0 <==> maxAttempts <= 0
    // a false answer comes only after the whole budget was queried
    ensures !r.ok ==> r.queries == (if maxAttempts > 0 then maxAttempts else 0)
    ensures r.ok ==> (r.queries > 0 && StatusAt(responses, r.queries - 1).Some?
                      && StatusAt(responses, r.queries - 1).value.confirmationStatus == Some(expected))
    ensures r.ok ==> Accepts(LevelReached(expected), StatusAt(responses, r.queries - 1))
    ensures forall k :: 0 <= k < r.queries - 1 ==> !Accepts(LevelReached(expected), StatusAt(responses, k))
    ensures |r.trace| == if r.queries == 0 then 0 else 2 * r.queries - 1
    ensures r.trace == IterWithExpDelay(maxAttempts, initial, alpha)[..|r.trace|]
  {
    PollFrom(responses, LevelReached(expected), 0, maxAttempts, initial, alpha)
  }

  /**
   * The poller as evidently intended: stop only on a status that reached the
   * level without an on-chain error.
   */
  function WaitForSuccessfulStatus(responses: seq<Option<TxStatus>>, expected: Confirmation,
                                   maxAttempts: int, initial: real, alpha: real): (r: PollResult)
    ensures r.ok <==> exists k :: 0 <= k < maxAttempts && Accepts(SucceededAtLevel(expected), StatusAt(responses, k))
    ensures r.ok ==> (r.queries > 0 && StatusAt(responses, r.queries - 1).Some?
                      && StatusAt(responses, r.queries - 1).value.err.None?
                      && StatusAt(responses, r.queries - 1).value.confirmationStatus == Some(expected))
    ensures r.ok ==> Accepts(SucceededAtLevel(expected), StatusAt(responses, r.queries - 1))
    ensures forall k :: 0 <= k < r.queries - 1 ==> !Accepts(SucceededAtLevel(expected), StatusAt(responses, k))
    ensures r.queries <= if maxAttempts > 0 then maxAttempts else 0
    ensures r.queries == 0 <==> maxAttempts <= 0
    ensures !r.ok ==> r.queries == (if maxAttempts > 0 then maxAttempts else 0)
    ensures |r.trace| == if r.queries == 0 then 0 else 2 * r.queries - 1
    ensures r.trace == IterWithExpDelay(maxAttempts, initial, alpha)[..|r.trace|]
  {
    PollFrom(responses, SucceededAtLevel(expected), 0, maxAttempts, initial, alpha)
  }

  /** The number of sleeps is one less than the number of queries. */
  lemma PollSleeps(responses: seq<Option<TxStatus>>, check: StatusCheck, maxAttempts: int, initial: real, alpha: real)
    ensures var r := PollFrom(responses, check, 0, maxAttempts, initial, alpha);
            var sleeps := Sleeps(r.trace);
            |sleeps| == (if r.queries > 0 then r.queries - 1 else 0)
            && forall k :: 0 <= k < |sleeps| ==> sleeps[k] == Delay(initial, alpha, k)
  {
    var r := PollFrom(responses, check, 0, maxAttempts, initial, alpha);
    if r.queries > 0 {
      ScheduleContents(r.trace, 0, r.queries, initial, alpha);
    }
  }

  /**
   * Three answers that do not match followed by one that does: the poller
   * stops after the fourth query, having slept `initial`, `initial * alpha`
   * and `initial * alpha^2`.
   */
  lemma {:induction false} StopsAtFourthQuery(responses: seq<Option<TxStatus>>, expected: Confirmation,
                                              maxAttempts: int, initial: real, alpha: real)
    requires maxAttempts >= 4
    requires forall k :: 0 <= k < 3 ==> !Accepts(LevelReached(expected), StatusAt(responses, k))
    requires Accepts(LevelReached(expected), StatusAt(responses, 3))
    ensures var r := WaitForSignatureStatus(responses, expected, maxAttempts, initial, alpha);
            r.ok && r.queries == 4 && Sleeps(r.trace) == [initial, initial * alpha, initial * alpha * alpha]
  {
    var check := LevelReached(expected);
    var r := WaitForSignatureStatus(responses, expected, maxAttempts, initial, alpha);
    assert !Accepts(check, StatusAt(responses, 0));
    assert !Accepts(check, StatusAt(responses, 1));
    assert !Accepts(check, StatusAt(responses, 2));
    assert r.ok;
    assert r.queries == 4;
    PollSleeps(responses, LevelReached(expected), maxAttempts, initial, alpha);
    var sleeps := Sleeps(r.trace);
    assert |sleeps| == 3;
    assert sleeps[0] == initial;
    assert sleeps[1] == initial * alpha;
    assert sleeps[2] == Delay(initial, alpha, 2) == initial * (alpha * (alpha * 1.0));
  }

  /**
   * With the defaults, three unconfirmed answers followed by a finalized one
   * give true after four queries, sleeping 1.0, 1.5 and 2.25 seconds.
   */
  lemma DefaultBackoffScenario(responses: seq<Option<TxStatus>>)
    requires responses == [None, Some(TxStatus(None, Some(Processed))), Some(TxStatus(None, Some(Confirmed))),
                           Some(TxStatus(None, Some(Finalized)))]
    ensures var r := WaitForSignatureStatus(responses, Finalized, DEFAULT_EXP_MAX_ATTEMPTS,
                                            DEFAULT_EXP_INITIAL, DEFAULT_EXP_ALPHA);
            r.ok && r.queries == 4 && Sleeps(r.trace) == [1.0, 1.5, 2.25]
  {
    StopsAtFourthQuery(responses, Finalized, DEFAULT_EXP_MAX_ATTEMPTS, DEFAULT_EXP_INITIAL, DEFAULT_EXP_ALPHA);
  }
}

=== FILE: repository_loan.dfy ===
/**
 * The loan ledger (repository/loan.py): an in-memory picture of the `loan`
 * table with create, point lookup, count, offset/limit listing, an
 * address-filtered listing, a full-row update keyed by id, and a transaction
 * modelled as snapshot / apply / commit-or-restore.
 */
module LoanLedger {
  import opened Wrappers
  import opened LoanData

  /** What the database raises instead of returning. */
  datatype LedgerError =
    | NoResultFound      // `one()` on an UPDATE that matched no row
    | UniqueViolation    // INSERT of a primary key that already exists
    | NegativeOffset     // PostgreSQL: "OFFSET must not be negative"
    | NegativeLimit      // PostgreSQL: "LIMIT must not be negative"
    | NotImplemented     // `count_by_address`

  /** The table: every stored row, keyed by its id. */
  datatype Ledger = Ledger(rows: map<LoanId, LoanItem>)

  /** Every row is stored under its own id. */
  ghost predicate WellKeyed(l: Ledger) {
    forall id :: id in l.rows ==> l.rows[id].id == id
  }

  /** `get_by_id`: the row with that id, or nothing. */
  function GetById(l: Ledger, id: LoanId): (r: Option<LoanItem>)
    ensures r.Some? <==> id in l.rows
    ensures r.Some? ==> r.value == l.rows[id]
  {
    if id in l.rows then Some(l.rows[id]) else None
  }

  /** `count`: the number of rows; zero exactly for an empty table. */
  function Count(l: Ledger): (n: nat)
    ensures n == 0 <==> l.rows == map[]
    ensures forall id :: id in l.rows ==> n >= 1
  {
    assert l.rows == map[] <==> l.rows.Keys == {};
    |l.rows|
  }

  /**
   * The order in which a scan without ORDER BY returns the rows: any
   * enumeration of the stored ids that lists each exactly once.
   */
  ghost predicate IsScanOrder(l: Ledger, scan: seq<LoanId>) {
    && (forall i :: 0 <= i < |scan| ==> scan[i] in l.rows)
    && (forall id :: id in l.rows ==> id in scan)
    && (forall i, j :: 0 <= i < j < |scan| ==> scan[i] != scan[j])
  }

  /** The rows in scan order. */
  function Scan(l: Ledger, scan: seq<LoanId>): (items: seq<LoanItem>)
    requires forall i :: 0 <= i < |scan| ==> scan[i] in l.rows
    ensures |items| == |scan|
    ensures forall i :: 0 <= i < |scan| ==> items[i] == l.rows[scan[i]]
  {
    if |scan| == 0 then [] else [l.rows[scan[0]]] + Scan(l, scan[1..])
  }

  /** A scan order has exactly as many entries as the table has rows. */
  lemma ScanOrderLength(l: Ledger, scan: seq<LoanId>)
    requires IsScanOrder(l, scan)
    ensures |scan| == Count(l)
  {
    var ids := set i | 0 <= i < |scan| :: scan[i];
    assert ids == l.rows.Keys;
    DistinctCardinality(scan);
  }

  lemma {:induction false} DistinctCardinality<T>(s: seq<T>)
    requires forall i, j :: 0 <= i < j < |s| ==> s[i] != s[j]
    ensures |set i | 0 <= i < |s| :: s[i]| == |s|
  {
    if |s| > 0 {
      var tail := s[1..];
      DistinctCardinality(tail);
      var all := set i | 0 <= i < |s| :: s[i];
      var rest := set i | 0 <= i < |tail| :: tail[i];
      assert all == {s[0]} + rest by {
        forall x | x in all ensures x in {s[0]} + rest {
          var i :| 0 <= i < |s| && s[i] == x;
          if i > 0 { assert tail[i - 1] == x; }
        }
      }
      assert s[0] !in rest by {
        forall i | 0 <= i < |tail| ensures tail[i] != s[0] {
          assert tail[i] == s[i + 1];
        }
      }
    }
  }

  /**
   * OFFSET/LIMIT applied to a result sequence, as PostgreSQL does it: a
   * negative offset or limit is an error, otherwise skip `offset` rows and
   * keep at most `limit`.
   */
  function Page<T>(s: seq<T>, p: PaginationOptions): (r: Result<seq<T>, LedgerError>)
    ensures p.offset < 0 ==> r == Failure(NegativeOffset)
    ensures 0 <= p.offset && p.limit < 0 ==> r == Failure(NegativeLimit)
    ensures r.Success? <==> 0 <= p.offset && 0 <= p.limit
    ensures r.Success? ==> |r.value| <= p.limit
    ensures r.Success? ==> forall i :: 0 <= i < |r.value| ==> p.offset + i < |s| && r.value[i] == s[p.offset + i]
    ensures r.Success? && p.offset + p.limit <= |s| ==> |r.value| == p.limit
    ensures r.Success? && p.offset + p.limit > |s| ==> |r.value| == if p.offset < |s| then |s| - p.offset else 0
  {
    if p.offset < 0 then Failure(NegativeOffset)
    else if p.limit < 0 then Failure(NegativeLimit)
    else
      var lo := if p.offset < |s| then p.offset else |s|;
      var hi := if p.offset + p.limit < |s| then p.offset + p.limit else |s|;
      Success(s[lo..hi])
  }

  /** Two consecutive pages together are the page that spans both. */
  lemma PagesConcatenate<T>(s: seq<T>, offset: nat, a: nat, b: nat)
    ensures Page(s, PaginationOptions(offset, a)).value + Page(s, PaginationOptions(offset + a, b)).value
         == Page(s, PaginationOptions(offset, a + b)).value
  {
  }

  /** `find`: the rows in scan order, paged. */
  function Find(l: Ledger, scan: seq<LoanId>, p: PaginationOptions): (r: Result<seq<LoanItem>, LedgerError>)
    requires IsScanOrder(l, scan)
    ensures r.Success? <==> 0 <= p.offset && 0 <= p.limit
    ensures r.Success? ==> |r.value| <= p.limit
    ensures r.Success? ==> forall i :: 0 <= i < |r.value| ==>
              p.offset + i < |scan| && r.value[i] == l.rows[scan[p.offset + i]]
    ensures r.Success? && WellKeyed(l) ==> forall i, j :: 0 <= i < j < |r.value| ==> r.value[i] != r.value[j]
    ensures r.Success? ==> |r.value| == if p.offset < Count(l) then
                                          (if p.offset + p.limit <= Count(l) then p.limit else Count(l) - p.offset)
                                        else 0
  {
    ScanOrderLength(l, scan);
    Page(Scan(l, scan), p)
  }

  /** A page from offset 0 at least as long as the table lists every stored row exactly once. */
  lemma FindWholeTable(l: Ledger, scan: seq<LoanId>, limit: int)
    requires WellKeyed(l)
    requires IsScanOrder(l, scan)
    requires limit >= Count(l)
    ensures Find(l, scan, PaginationOptions(0, limit)).Success?
    ensures var rows := Find(l, scan, PaginationOptions(0, limit)).value;
            && |rows| == Count(l)
            && (forall id :: id in l.rows ==> l.rows[id] in rows)
            && (forall i :: 0 <= i < |rows| ==> rows[i] in l.rows.Values)
  {
    ScanOrderLength(l, scan);
    var rows := Find(l, scan, PaginationOptions(0, limit)).value;
    assert rows == Scan(l, scan);
    forall id | id in l.rows
      ensures l.rows[id] in rows
    {
      var i :| 0 <= i < |scan| && scan[i] == id;
      assert rows[i] == l.rows[id];
    }
  }

  /** The rows whose address equals `address`, in scan order. */
  function ScanByAddress(l: Ledger, scan: seq<LoanId>, address: Pubkey): (items: seq<LoanItem>)
    requires forall i :: 0 <= i < |scan| ==> scan[i] in l.rows
    ensures forall i :: 0 <= i < |items| ==> items[i].address == address && items[i] in l.rows.Values
    ensures forall i :: 0 <= i < |scan| && l.rows[scan[i]].address == address ==> l.rows[scan[i]] in items
    ensures |items| <= |scan|
  {
    if |scan| == 0 then []
    else
      var head := l.rows[scan[0]];
      var rest := ScanByAddress(l, scan[1..], address);
      assert forall i :: 1 <= i < |scan| ==> scan[i] == scan[1..][i - 1];
      if head.address == address then [head] + rest else rest
  }

  /**
   * Over a scan that lists each id once, on a table whose rows sit under
   * their own ids, the matching rows are distinct and each comes from the scan.
   */
  lemma {:induction false} ScanByAddressDistinct(l: Ledger, scan: seq<LoanId>, address: Pubkey)
    requires WellKeyed(l)
    requires forall i :: 0 <= i < |scan| ==> scan[i] in l.rows
    requires forall i, j :: 0 <= i < j < |scan| ==> scan[i] != scan[j]
    ensures forall i :: 0 <= i < |ScanByAddress(l, scan, address)| ==> ScanByAddress(l, scan, address)[i].id in scan
    ensures forall i, j :: 0 <= i < j < |ScanByAddress(l, scan, address)|
              ==> ScanByAddress(l, scan, address)[i] != ScanByAddress(l, scan, address)[j]
  {
    if |scan| > 0 {
      var tail := scan[1..];
      assert forall i :: 0 <= i < |tail| ==> tail[i] == scan[i + 1];
      ScanByAddressDistinct(l, tail, address);
      var head := l.rows[scan[0]];
      var rest := ScanByAddress(l, tail, address);
      assert scan[0] !in tail by {
        forall k | 0 <= k < |tail| ensures tail[k] != scan[0] { assert tail[k] == scan[k + 1]; }
      }
      // every row after the head carries an id from the tail, which never repeats the head's
      assert head.id == scan[0];
      assert forall i :: 0 <= i < |rest| ==> rest[i] != head;
      assert forall x :: x in tail ==> x in scan;
      var items := ScanByAddress(l, scan, address);
      assert items == if head.address == address then [head] + rest else rest;
      if head.address == address {
        forall i, j | 0 <= i < j < |items| ensures items[i] != items[j] {
          assert items[j] == rest[j - 1];
          if i > 0 { assert items[i] == rest[i - 1]; }
        }
        forall i | 0 <= i < |items| ensures items[i].id in scan {
          if i > 0 { assert items[i] == rest[i - 1]; }
        }
      }
    }
  }

  /** `ScanByAddressDistinct` for any table: the conclusion holds whenever the rows sit under their own ids. */
  lemma ScanByAddressDistinctIfKeyed(l: Ledger, scan: seq<LoanId>, address: Pubkey)
    requires forall i :: 0 <= i < |scan| ==> scan[i] in l.rows
    requires forall i, j :: 0 <= i < j < |scan| ==> scan[i] != scan[j]
    ensures WellKeyed(l) ==>
              forall i, j :: 0 <= i < j < |ScanByAddress(l, scan, address)|
                ==> ScanByAddress(l, scan, address)[i] != ScanByAddress(l, scan, address)[j]
  {
    if WellKeyed(l) {
      ScanByAddressDistinct(l, scan, address);
    }
  }

  /** `find_by_address`: the rows with that address, in scan order, paged. */
  function FindByAddress(l: Ledger, scan: seq<LoanId>, address: Pubkey, p: PaginationOptions)
    : (r: Result<seq<LoanItem>, LedgerError>)
    requires IsScanOrder(l, scan)
    ensures r.Success? <==> 0 <= p.offset && 0 <= p.limit
    ensures r.Success? ==> |r.value| <= p.limit
    ensures r.Success? ==> forall i :: 0 <= i < |r.value| ==> r.value[i].address == address && r.value[i] in l.rows.Values
    // the window [offset, offset + limit) of the matching rows, in scan order
    ensures r.Success? ==>
              var matches := ScanByAddress(l, scan, address);
              && |r.value| == (if p.offset < |matches| then
                                 (if p.offset + p.limit <= |matches| then p.limit else |matches| - p.offset)
                               else 0)
              && forall i :: 0 <= i < |r.value| ==> r.value[i] == matches[p.offset + i]
    ensures r.Success? && WellKeyed(l) ==> forall i, j :: 0 <= i < j < |r.value| ==> r.value[i] != r.value[j]
  {
    ScanByAddressDistinctIfKeyed(l, scan, address);
    Page(ScanByAddress(l, scan, address), p)
  }

  /** A page that starts at 0 and is at least as long as the table lists every row with the address. */
  lemma FindByAddressComplete(l: Ledger, scan: seq<LoanId>, address: Pubkey, limit: int)
    requires IsScanOrder(l, scan)
    requires limit >= Count(l)
    ensures FindByAddress(l, scan, address, PaginationOptions(0, limit)).Success?
    ensures forall id :: id in l.rows && l.rows[id].address == address
              ==> l.rows[id] in FindByAddress(l, scan, address, PaginationOptions(0, limit)).value
  {
    ScanOrderLength(l, scan);
    var all := ScanByAddress(l, scan, address);
    assert FindByAddress(l, scan, address, PaginationOptions(0, limit)).value == all;
    forall id | id in l.rows && l.rows[id].address == address
      ensures l.rows[id] in all
    {
      var i :| 0 <= i < |scan| && scan[i] == id;
    }
  }

  /** `count_by_address`: not implemented, so it always raises. */
  function CountByAddress(l: Ledger, address: Pubkey): (r: Result<nat, LedgerError>)
    ensures r.Failure? && r.error == NotImplemented
  {
    Failure(NotImplemented)
  }

  /**
   * `create`: insert a row under the id the database generates (`newId`,
   * from `uuid_generate_v4()`), returning the inserted row.
   */
  function Create(l: Ledger, newId: LoanId, status: Status, address: Pubkey, amount: Amount)
    : (r: Result<(Ledger, LoanItem), LedgerError>)
    ensures r.Failure? <==> newId in l.rows
    ensures r.Failure? ==> r.error == UniqueViolation
    ensures r.Success? ==>
      var (l', item) := r.value;
      && item.id == newId && item.status == status && item.address == address && item.amount == amount
      && l'.rows.Keys == l.rows.Keys + {newId}
      && Count(l') == Count(l) + 1
      && GetById(l', newId) == Some(item)
      && (forall id :: id in l.rows ==> GetById(l', id) == GetById(l, id))
      && (WellKeyed(l) ==> WellKeyed(l'))
  {
    if newId in l.rows then Failure(UniqueViolation)
    else
      var item := LoanItem(newId, status, address, amount);
      Success((Ledger(l.rows[newId := item]), item))
  }

  /**
   * `update_existing_by_id`: overwrite status, address and amount of the row
   * whose id is `item.id`; raises when there is no such row.
   */
  function UpdateExistingById(l: Ledger, item: LoanItem): (r: Result<(Ledger, LoanItem), LedgerError>)
    ensures r.Failure? <==> item.id !in l.rows
    ensures r.Failure? ==> r.error == NoResultFound
    ensures r.Success? ==>
      var (l', updated) := r.value;
      && updated == item
      && l'.rows.Keys == l.rows.Keys
      && Count(l') == Count(l)
      && GetById(l', item.id) == Some(item)
      && (forall id :: id != item.id ==> GetById(l', id) == GetById(l, id))
      && (WellKeyed(l) ==> WellKeyed(l'))
  {
    if item.id !in l.rows then Failure(NoResultFound)
    else Success((Ledger(l.rows[item.id := item]), item))
  }

  /**
   * `use_transaction`: the ledger as it was when the block was entered and
   * the working copy that writes inside the block go to.
   */
  datatype Transaction = Transaction(loanId: LoanId, snapshot: Ledger, working: Ledger)

  /** Entering the block: until something is written, either way out leaves the ledger as it was. */
  function Begin(l: Ledger, loanId: LoanId): (tx: Transaction)
    ensures tx.loanId == loanId
    ensures Commit(tx) == l && Rollback(tx) == l
  {
    Transaction(loanId, l, l)
  }

  /** A write inside the block. */
  function Write(tx: Transaction, l': Ledger): Transaction {
    tx.(working := l')
  }

  /** Leaving the block normally makes the working copy visible. */
  function Commit(tx: Transaction): Ledger {
    tx.working
  }

  /** Leaving the block by an exception (or `raise_rollback`) restores the snapshot. */
  function Rollback(tx: Transaction): Ledger {
    tx.snapshot
  }

  /** A sequence of full-row updates inside one transaction; a failing one ends it. */
  function UpdateAll(tx: Transaction, items: seq<LoanItem>): (r: Result<Transaction, LedgerError>)
    ensures r.Success? ==> Count(r.value.working) == Count(tx.working)
    decreases |items|
  {
    if |items| == 0 then Success(tx)
    else match UpdateExistingById(tx.working, items[0])
      case Failure(e) => Failure(e)
      case Success((l', _)) => UpdateAll(Write(tx, l'), items[1..])
  }

  /** Updates inside a transaction that is rolled back leave no trace in later reads. */
  lemma {:induction false} RolledBackUpdatesInvisible(l: Ledger, loanId: LoanId, items: seq<LoanItem>)
    ensures UpdateAll(Begin(l, loanId), items).Success? ==> Rollback(UpdateAll(Begin(l, loanId), items).value) == l
  {
    SnapshotKept(Begin(l, loanId), items);
  }

  lemma {:induction false} SnapshotKept(tx: Transaction, items: seq<LoanItem>)
    ensures UpdateAll(tx, items).Success? ==> UpdateAll(tx, items).value.snapshot == tx.snapshot
    decreases |items|
  {
    if |items| > 0 {
      match UpdateExistingById(tx.working, items[0])
      case Failure(_) =>
      case Success((l', _)) => SnapshotKept(Write(tx, l'), items[1..]);
    }
  }

  /**
   * The row a sequence of full-row updates leaves under `id`: the last item
   * written with that id, or `current` when none was.
   */
  function LastWrite(current: LoanItem, id: LoanId, items: seq<LoanItem>): LoanItem
    decreases |items|
  {
    if |items| == 0 then current
    else if items[|items| - 1].id == id then items[|items| - 1]
    else LastWrite(current, id, items[..|items| - 1])
  }

  lemma {:induction false} LastWriteCons(current: LoanItem, id: LoanId, x: LoanItem, rest: seq<LoanItem>)
    ensures LastWrite(current, id, [x] + rest) == LastWrite(if x.id == id then x else current, id, rest)
    decreases |rest|
  {
    if |rest| > 0 {
      var all := [x] + rest;
      assert all[..|all| - 1] == [x] + rest[..|rest| - 1];
      LastWriteCons(current, id, x, rest[..|rest| - 1]);
    }
  }

  /**
   * Updates of stored rows inside a transaction that is committed all become
   * visible: every row ends up as the last update written to it, and no row
   * appears or disappears.
   */
  lemma {:induction false} CommittedUpdatesVisible(tx: Transaction, items: seq<LoanItem>)
    requires forall i :: 0 <= i < |items| ==> items[i].id in tx.working.rows
    ensures UpdateAll(tx, items).Success?
    ensures var after := Commit(UpdateAll(tx, items).value);
            && after.rows.Keys == tx.working.rows.Keys
            && forall id :: id in after.rows ==> after.rows[id] == LastWrite(tx.working.rows[id], id, items)
    decreases |items|
  {
    if |items| > 0 {
      var l' := tx.working.rows[items[0].id := items[0]];
      var tx' := Write(tx, Ledger(l'));
      assert UpdateAll(tx, items) == UpdateAll(tx', items[1..]);
      CommittedUpdatesVisible(tx', items[1..]);
      forall id | id in l'
        ensures LastWrite(l'[id], id, items[1..]) == LastWrite(tx.working.rows[id], id, items)
      {
        assert items == [items[0]] + items[1..];
        LastWriteCons(tx.working.rows[id], id, items[0], items[1..]);
      }
    }
  }
}

=== FILE: repository_token.dfy ===
/**
 * The asset-transfer gateway (`TokenRepository`, repository/token.py): derive
 * a wallet's associated token account, create it when missing, read a
 * balance, and transfer tokens from the owner's account, waiting for the
 * transfer to be finalized.
 *
 * The network is a value: the token accounts that exist with their balances,
 * an oracle saying what a transfer submission does, and the log of RPC calls
 * made so far.
 */
module TokenGateway {
  import opened Wrappers
  import opened LoanData
  import opened Iterable

  /** One argument of an `RPCException`. */
  datatype ExceptionArg = PreflightFailure(message: string) | OtherArg(text: string)

  /** `RPCException`: raised by the client when the node rejects a request. */
  datatype RpcException = RpcException(args: seq<ExceptionArg>)

  /**
   * What the network does with a transfer submission: reject it with an
   * exception, or accept it, hand back its signature, execute it on-chain or
   * not, and answer successive status queries with `responses`.
   */
  datatype Submission =
    | Rejected(exception: RpcException)
    | Accepted(signature: Signature, executed: bool, responses: seq<Option<TxStatus>>)

  /** The RPC requests the gateway sends. */
  datatype RpcCall =
    | GetAccountInfo(account: Pubkey)
    | CreateAssociatedAccount(wallet: Pubkey)
    | GetTokenBalance(account: Pubkey)
    | SendTransfer(source: Pubkey, dest: Pubkey, amount: Amount)
    | GetSignatureStatuses(signature: Signature)

  /** The asset network as far as the gateway sees it. */
  datatype Network = Network(holdings: map<Pubkey, Amount>, submission: Submission, calls: seq<RpcCall>)

  /** A `TokenRepository`: the token mint and the custodian (owner) wallet. */
  datatype TokenRepository = TokenRepository(token: Pubkey, owner: Pubkey)

  /** The balance held by a token account; an account that does not exist holds nothing. */
  function BalanceOf(net: Network, account: Pubkey): Amount {
    if account in net.holdings then net.holdings[account] else 0
  }

  /**
   * `get_account`: the associated token account of `wallet` for the
   * repository's mint, an address distinct from both keys it is derived from.
   */
  function GetAccount(repo: TokenRepository, wallet: Pubkey): (account: Pubkey)
    ensures account != wallet && account != repo.token
  {
    var account := Associated(wallet, repo.token);
    assert wallet < account && repo.token < account;
    account
  }

  /** Distinct wallets have distinct associated accounts; none is a wallet key. */
  lemma GetAccountInjective(repo: TokenRepository, a: Pubkey, b: Pubkey)
    ensures GetAccount(repo, a) == GetAccount(repo, b) <==> a == b
    ensures GetAccount(repo, a) != a
  {
    assert a < GetAccount(repo, a);
  }

  /**
   * `get_or_create_account`: look the associated account up and create it,
   * with an empty balance, only when the lookup finds nothing.
   */
  function GetOrCreateAccount(repo: TokenRepository, net: Network, wallet: Pubkey): (r: (Pubkey, Network))
    ensures r.0 == GetAccount(repo, wallet)
    ensures r.0 in r.1.holdings
    ensures r.1.submission == net.submission
    ensures r.0 in net.holdings ==> r.1.holdings == net.holdings && r.1.calls == net.calls + [GetAccountInfo(r.0)]
    ensures r.0 !in net.holdings ==>
              && r.1.holdings.Keys == net.holdings.Keys + {r.0}
              && BalanceOf(r.1, r.0) == 0
              && (forall a :: a != r.0 ==> BalanceOf(r.1, a) == BalanceOf(net, a))
              && r.1.calls == net.calls + [GetAccountInfo(r.0), CreateAssociatedAccount(wallet)]
  {
    var account := GetAccount(repo, wallet);
    var looked := net.(calls := net.calls + [GetAccountInfo(account)]);
    if account in net.holdings then (account, looked)
    else (account, looked.(holdings := net.holdings[account := 0],
                           calls := looked.calls + [CreateAssociatedAccount(wallet)]))
  }

  /** The answer to a token-balance request. */
  datatype BalanceResponse = TokenAccountBalance(amount: Amount) | ErrorResponse

  function BalanceResponseOf(net: Network, account: Pubkey): BalanceResponse {
    if account in net.holdings then TokenAccountBalance(net.holdings[account]) else ErrorResponse
  }

  /**
   * `get_account_amount`: the balance of the wallet's associated account when
   * the answer is a balance, nothing otherwise.
   */
  function GetAccountAmount(repo: TokenRepository, net: Network, wallet: Pubkey): (r: (Option<Amount>, Network))
    ensures r.0.Some? <==> BalanceResponseOf(net, GetAccount(repo, wallet)).TokenAccountBalance?
    ensures r.0.Some? ==> r.0.value == BalanceOf(net, GetAccount(repo, wallet))
    ensures r.1 == net.(calls := net.calls + [GetTokenBalance(GetAccount(repo, wallet))])
  {
    var account := GetAccount(repo, wallet);
    var answered := net.(calls := net.calls + [GetTokenBalance(account)]);
    match BalanceResponseOf(net, account)
    case TokenAccountBalance(amount) => (Some(amount), answered)
    case ErrorResponse => (None, answered)
  }

  /** Tokens leave `source` and arrive at `dest`. */
  function Move(holdings: map<Pubkey, Amount>, source: Pubkey, dest: Pubkey, amount: Amount): map<Pubkey, Amount> {
    var debited := holdings[source := (if source in holdings then holdings[source] else 0) - amount];
    debited[dest := (if dest in debited then debited[dest] else 0) + amount]
  }

  /** One status query per poller attempt. */
  function StatusQueries(signature: Signature, n: nat): (calls: seq<RpcCall>)
    ensures |calls| == n && forall i :: 0 <= i < n ==> calls[i] == GetSignatureStatuses(signature)
  {
    if n == 0 then [] else StatusQueries(signature, n - 1) + [GetSignatureStatuses(signature)]
  }

  /** The calls a transfer adds to the log before any status query. */
  function TransferPrefix(repo: TokenRepository, net: Network, wallet: Pubkey, amount: Amount): seq<RpcCall> {
    var dest := GetAccount(repo, wallet);
    net.calls
    + (if dest in net.holdings then [GetAccountInfo(dest)] else [GetAccountInfo(dest), CreateAssociatedAccount(wallet)])
    + [SendTransfer(GetAccount(repo, repo.owner), dest, amount)]
  }

  /** The holdings after the destination account exists and, if the network executed it, the transfer. */
  function HoldingsAfter(repo: TokenRepository, net: Network, wallet: Pubkey, amount: Amount): map<Pubkey, Amount> {
    var dest := GetAccount(repo, wallet);
    var provisioned := if dest in net.holdings then net.holdings else net.holdings[dest := 0];
    if net.submission.Accepted? && net.submission.executed
    then Move(provisioned, GetAccount(repo, repo.owner), dest, amount)
    else provisioned
  }

  /** The network once the destination account is resolved (or created) and the transfer is sent. */
  function Dispatch(repo: TokenRepository, net: Network, wallet: Pubkey, amount: Amount): (sent: Network)
    ensures sent.submission == net.submission
    ensures sent.calls == TransferPrefix(repo, net, wallet, amount)
    ensures GetAccount(repo, wallet) in sent.holdings
    ensures !(net.submission.Accepted? && net.submission.executed) ==> sent.holdings == HoldingsAfter(repo, net, wallet, amount)
  {
    var source := GetAccount(repo, repo.owner);
    var (dest, created) := GetOrCreateAccount(repo, net, wallet);
    created.(calls := created.calls + [SendTransfer(source, dest, amount)])
  }

  /** The confirmation poller `transfer` runs, with its default budget and delays. */
  function AwaitConfirmation(responses: seq<Option<TxStatus>>, check: StatusCheck): (r: PollResult)
    ensures 1 <= r.queries <= DEFAULT_EXP_MAX_ATTEMPTS
    ensures !r.ok ==> r.queries == DEFAULT_EXP_MAX_ATTEMPTS
    ensures r.ok <==> exists k :: 0 <= k < DEFAULT_EXP_MAX_ATTEMPTS && Accepts(check, StatusAt(responses, k))
    // the poller stops at the first status it accepts
    ensures r.ok ==> Accepts(check, StatusAt(responses, r.queries - 1))
    ensures forall j :: 0 <= j < r.queries - 1 ==> !Accepts(check, StatusAt(responses, j))
  {
    match check
    case LevelReached(level) =>
      WaitForSignatureStatus(responses, level, DEFAULT_EXP_MAX_ATTEMPTS, DEFAULT_EXP_INITIAL, DEFAULT_EXP_ALPHA)
    case SucceededAtLevel(level) =>
      WaitForSuccessfulStatus(responses, level, DEFAULT_EXP_MAX_ATTEMPTS, DEFAULT_EXP_INITIAL, DEFAULT_EXP_ALPHA)
  }

  /**
   * The transfer flow, parameterised by what makes the confirmation poller
   * stop (`check`), with the default poller budget.
   */
  function TransferWith(repo: TokenRepository, net: Network, wallet: Pubkey, amount: Amount, check: StatusCheck)
    : (r: (bool, Network))
    ensures r.1.submission == net.submission
    ensures GetAccount(repo, wallet) in r.1.holdings
    ensures r.1.holdings == HoldingsAfter(repo, net, wallet, amount)
    ensures TransferPrefix(repo, net, wallet, amount) <= r.1.calls
    ensures net.submission.Rejected? ==> !r.0 && r.1.calls == TransferPrefix(repo, net, wallet, amount)
    ensures net.submission.Accepted? ==>
              var queried := r.1.calls[|TransferPrefix(repo, net, wallet, amount)|..];
              && 1 <= |queried| <= DEFAULT_EXP_MAX_ATTEMPTS
              && (forall i :: 0 <= i < |queried| ==> queried[i] == GetSignatureStatuses(net.submission.signature))
              // an unconfirmed transfer is given up only after the whole poller budget
              && (!r.0 ==> |queried| == DEFAULT_EXP_MAX_ATTEMPTS)
              // a confirmed transfer stops querying at the first accepted status
              && (r.0 ==> Accepts(check, StatusAt(net.submission.responses, |queried| - 1)))
              && (forall j :: 0 <= j < |queried| - 1 ==> !Accepts(check, StatusAt(net.submission.responses, j)))
    ensures r.0 <==> net.submission.Accepted?
                     && exists k :: 0 <= k < DEFAULT_EXP_MAX_ATTEMPTS && Accepts(check, StatusAt(net.submission.responses, k))
  {
    var sent := Dispatch(repo, net, wallet, amount);
    match net.submission
    case Rejected(_) => (false, sent)
    case Accepted(signature, executed, responses) =>
      var landed := sent.(holdings := HoldingsAfter(repo, net, wallet, amount));
      var poll := AwaitConfirmation(responses, check);
      (poll.ok, landed.(calls := landed.calls + StatusQueries(signature, poll.queries)))
  }

  /**
   * `transfer` as written: true when the transfer was accepted and some status,
   * within the poller's budget, reports it finalized, whether or not the
   * transaction failed on-chain.
   */
  function TransferAsWritten(repo: TokenRepository, net: Network, wallet: Pubkey, amount: Amount): (r: (bool, Network))
    ensures r.1.holdings == HoldingsAfter(repo, net, wallet, amount)
    ensures net.submission.Rejected? ==> !r.0 && r.1.calls == TransferPrefix(repo, net, wallet, amount)
    ensures r.0 <==> net.submission.Accepted?
                     && exists k :: 0 <= k < DEFAULT_EXP_MAX_ATTEMPTS
                                    && Accepts(LevelReached(Finalized), StatusAt(net.submission.responses, k))
  {
    TransferWith(repo, net, wallet, amount, LevelReached(Finalized))
  }

  /**
   * `transfer` as evidently intended: true only when some status, within the
   * poller's budget, reports the transfer finalized without an on-chain error.
   */
  function Transfer(repo: TokenRepository, net: Network, wallet: Pubkey, amount: Amount): (r: (bool, Network))
    ensures r.1.holdings == HoldingsAfter(repo, net, wallet, amount)
    ensures net.submission.Rejected? ==> !r.0 && r.1.calls == TransferPrefix(repo, net, wallet, amount)
    ensures r.0 <==> net.submission.Accepted?
                     && exists k :: 0 <= k < DEFAULT_EXP_MAX_ATTEMPTS
                                    && Accepts(SucceededAtLevel(Finalized), StatusAt(net.submission.responses, k))
  {
    TransferWith(repo, net, wallet, amount, SucceededAtLevel(Finalized))
  }

  /**
   * The network accepts a transfer and, within the poller's budget, reports it
   * finalized without an on-chain error: exactly when `Transfer` reports true.
   */
  predicate ConfirmsSuccess(net: Network) {
    && net.submission.Accepted?
    && exists k :: 0 <= k < DEFAULT_EXP_MAX_ATTEMPTS && Accepts(SucceededAtLevel(Finalized), StatusAt(net.submission.responses, k))
  }

  /**
   * The network never reports a transaction as confirmed without an error
   * unless it executed it.
   */
  ghost predicate Coherent(net: Network) {
    net.submission.Accepted? ==>
      forall k :: 0 <= k < |net.submission.responses|
                  && net.submission.responses[k].Some?
                  && net.submission.responses[k].value.err.None?
                  && net.submission.responses[k].value.confirmationStatus.Some?
                  ==> net.submission.executed
  }

  /**
   * When the transfer reports success on a coherent network, the destination
   * holds exactly `amount` more than before and the owner's account exactly
   * `amount` less (lending to the owner itself moves nothing).
   */
  lemma TransferDeliversAmount(repo: TokenRepository, net: Network, wallet: Pubkey, amount: Amount)
    requires Coherent(net)
    requires wallet != repo.owner
    requires Transfer(repo, net, wallet, amount).0
    ensures var net' := Transfer(repo, net, wallet, amount).1;
            && BalanceOf(net', GetAccount(repo, wallet)) == BalanceOf(net, GetAccount(repo, wallet)) + amount
            && BalanceOf(net', GetAccount(repo, repo.owner)) == BalanceOf(net, GetAccount(repo, repo.owner)) - amount
  {
  }

  /**
   * A transaction that was finalized with an on-chain error (the network did
   * not execute it) is reported as a successful transfer by the code as
   * written, although no token moved; the intended check reports failure.
   */
  lemma FinalizedFailureCountsAsSuccess(repo: TokenRepository, wallet: Pubkey, signature: Signature)
    requires wallet != repo.owner
    ensures var failed := Some(TxStatus(Some(TxError("insufficient funds")), Some(Finalized)));
            var net := Network(map[GetAccount(repo, repo.owner) := 0, GetAccount(repo, wallet) := 0],
                               Accepted(signature, false, [failed]), []);
            && Coherent(net)
            && TransferAsWritten(repo, net, wallet, 1).0
            && BalanceOf(TransferAsWritten(repo, net, wallet, 1).1, GetAccount(repo, wallet)) == 0
            && !Transfer(repo, net, wallet, 1).0
  {
    var failed := Some(TxStatus(Some(TxError("insufficient funds")), Some(Finalized)));
    var net := Network(map[GetAccount(repo, repo.owner) := 0, GetAccount(repo, wallet) := 0],
                       Accepted(signature, false, [failed]), []);
    assert Accepts(LevelReached(Finalized), StatusAt(net.submission.responses, 0));
    assert forall k :: 0 <= k < DEFAULT_EXP_MAX_ATTEMPTS ==> !Accepts(SucceededAtLevel(Finalized), StatusAt(net.submission.responses, k));
  }
}

=== FILE: wrappers.dfy ===
/** Failure-carrying datatypes shared by the whole model. */
module Wrappers {

  /** A value that may be absent (Python's `Optional`). */
  datatype Option<+T> = None | Some(value: T)

  /** Either a value or the error that was raised instead of returning one. */
  datatype Result<+T, +E> = Success(value: T) | Failure(error: E)
}
